=== FILE: README.md ===
# http-tunnel in Dafny

A model of the tunnelling core of `http-tunnel.py`, a relay that listens on
local ports and forwards each accepted TCP connection through an HTTP proxy
by means of a `CONNECT` request. The asyncio plumbing is stripped away and
the decisions the program takes are stated as pure functions over immutable
data:

- **Configuration validation** (`Config`, `TunnelServer.load_config`): the
  parsed YAML document, as a `Value`, becomes a proxy record plus a
  port-to-remote map, or a `TypeError` carrying every problem logged, or an
  `AttributeError` where the code calls `.get` or `.items()` on something
  that is not a dict.
- **The CONNECT request** (`Handshake`): the exact bytes written to the
  proxy, with the `Proxy-Authorization: Basic` line of RFC 7617 when a user
  is configured. Base64 (`Base64`, section 4 of RFC 4648) and the `ascii`
  codec (`Ascii`) are written out rather than taken from a library.
- **The proxy's reply** (`Handshake`): `readuntil(b'\r\n\r\n')` as a
  first-match split into header block and leftover bytes, the first line,
  Python's `str.split()` (`PyStr`), and the test on the second field.
- **One relay direction** (`Relay`, `data_transfer`): the writer calls made
  for a given sequence of read results, with the loop itself as the method
  `Relay.Pump`.
- **One connection** (`Session`, `connection_callback`): the handshake
  outcome and the calls made on the client and proxy writers.

Inputs that come from the outside world are parameters: how
`open_connection` ends (`Session.Connect`: connected, an `OSError`, or any
other exception), the bytes the proxy has sent when the reply is read and
whether its stream is still open, at end of stream or reset (`ProxyReply`),
and the read results each relay direction receives.

The model follows the code as written; in particular:

- A non-200 reply closes only the client writer; the proxy connection is
  left open (`Session.NoRelayWithoutTunnel` states `CloseCount(toProxy) == 0`).
- A reply that ends before `\r\n\r\n` (`IncompleteReadError`), a first
  line with a non-ASCII byte (`UnicodeDecodeError`) or with fewer than two
  fields (`IndexError`) is not an `OSError`, so it escapes the handler and
  nothing is closed (`Session.Outcome.Crashed`). The same holds for a
  non-ASCII remote target or credentials (`UnicodeEncodeError`), and for
  an exception of `open_connection` that is not an `OSError`, such as the
  `OverflowError` raised for a proxy port outside 0-65535 when the host is
  an IP address. Only an `OSError` from `open_connection` or while reading
  the reply, or a non-200 reply, closes the client.
- When the tunnel starts after the proxy has reset the connection, the
  proxy-to-client relay's first read raises the stored error before
  returning any buffered byte: the bytes left over from the reply are lost
  and the client writer is never closed. After a clean end of stream the
  leftover is relayed and the client writer is closed.
- A relay direction closes its destination writer in full once its source
  reports end of stream; it does not half-close, and a read that raises
  ends the direction without closing anything.
- A `tunnels` section that is not a dict does not make the configuration
  invalid; it leads to an `AttributeError` at `.items()`. The proxy port's
  range is not checked, and `bool` values pass the `int` checks because
  `isinstance(True, int)` holds.
- A YAML mapping is kept as its pairs in document order, and the tunnel
  loop runs over the items of the dict PyYAML builds from them by
  successive assignment (`Config.Items`): a repeated key, or a `true` key
  after a `1` key (`True == 1`), is one item holding the last value, so a
  value it replaced is never type-checked.

## Model

| member | source | states |
|---|---|---|
| Config.Lookup | http-tunnel.py:28-36 | a key is found iff some pair has an equal key (`True == 1`), and the value found is that of the last such pair |
| Config.Get | http-tunnel.py:28-36 | `d.get(key)` finds an entry exactly when one has that key, and yields the value of the last such entry |
| Config.KeyIndex | http-tunnel.py:64 | the position found is the first item whose key equals the one sought, and none is found iff no item's key equals it |
| Config.LookupSameKey | http-tunnel.py:64 | keys equal under Python's `==` look up the same value |
| Config.AssignShape | http-tunnel.py:64 | one dict assignment keeps earlier keys in place, leaves the key present with the new value, changes no other item and keeps keys distinct |
| Config.ItemsDistinct | http-tunnel.py:64 | the dict built from a mapping's pairs has no two equal keys |
| Config.ItemsCover | http-tunnel.py:64 | every key of the mapping is a key of the dict |
| Config.AssignFinds | http-tunnel.py:64 | after `d[k] = v` the key `k` is present |
| Config.AssignKeeps | http-tunnel.py:64 | an assignment keeps every key already present |
| Config.ItemsFromPairs | http-tunnel.py:64 | the dict has at most as many items as the mapping has pairs, each keyed as one of the pairs |
| Config.ItemsValues | http-tunnel.py:64 | each item holds the value of the last pair whose key equals its key |
| Config.LookupLast | http-tunnel.py:64 | a lookup sees the last pair before the earlier ones |
| Config.StrOptionProblems | http-tunnel.py:46-62 | a string option gets a report iff it is present and not a string, the report naming the option, `str` and the type found |
| Config.PortProblems | http-tunnel.py:46-62 | the port gets a report iff it is present and not an int (or bool), the report naming `port`, `int` and the type found |
| Config.OptionProblems | http-tunnel.py:46-62 | the option loop reports nothing iff host, user and password are strings or absent and port is an int (or bool) or absent; at most four reports |
| Config.OptionReportsComplete | http-tunnel.py:46-62 | every ill-typed option is reported with its expected type and the type it has |
| Config.OptionReportsSound | http-tunnel.py:46-62 | every report names one of the four options, that option is ill-typed, and no option is reported twice |
| Config.FourReports | http-tunnel.py:46-62 | the reports of the four options, concatenated in order, each name an option known to be ill-typed, and no option twice |
| Config.PartsReported | http-tunnel.py:46-62 | the report of any one option appears in the concatenated reports |
| Config.ProxyDefaults | http-tunnel.py:46-54 | in a loaded configuration an absent option has its default (127.0.0.1, 3128, empty user and password) and a present one its given value |
| Config.ScanTunnels | http-tunnel.py:64-79 | the loop over the dict's items reports nothing iff every item has an int key and a string value; the stored ports are exactly the keys of the well-typed items |
| Config.ScanReportsEveryProblem | http-tunnel.py:64-78 | every ill-typed item is reported (key checked before value) and every report comes from an ill-typed item: the loop does not stop at the first error |
| Config.ScanStoresEntry | http-tunnel.py:79 | a well-typed item is stored unchanged under its port unless a later well-typed item names the same port |
| Config.LoadOutcomes | http-tunnel.py:21-82 | AttributeError iff the document is a truthy non-dict or the proxy section is a dict and the tunnels section is not; TypeError iff the proxy section is not a dict, or the tunnels section is a dict and some option or some item of the tunnels dict is ill-typed |
| Config.LoadReportsAllProblems | http-tunnel.py:46-82 | a TypeError raised after the option and tunnel loops has logged every bad option and every bad item of the tunnels dict |
| Config.LoadedRoutes | http-tunnel.py:64-82 | in a loaded configuration every pair of the tunnels mapping has an int key whose route is the value of the last pair with an equal key, and every route comes from such a key |
| Config.RouteOfPair | http-tunnel.py:64-79 | when every dict item is well typed, each pair's key is stored as a port holding the value of the last pair with an equal key |
| Config.PairOfRoute | http-tunnel.py:64-79 | every stored port is the int key of some pair of the mapping |
| Config.StoredBy | http-tunnel.py:64-79 | every stored port is the key of a well-typed item |
| Config.BoolPassesIntChecks | http-tunnel.py:46-79 | a bool proxy port and a bool tunnel key pass the int checks and are stored as 1 and 0 |
| Config.DuplicateKeyLastWins | http-tunnel.py:64-82 | a tunnel key given twice, first with an int value and then with a string, loads as one route with the string: the replaced value is never checked |
| Config.BoolKeyRepeatsInt | http-tunnel.py:64-82 | a `true` key after a `1` key replaces its value, and the route is stored under port 1 |
| Config.TwoSections | http-tunnel.py:24-36 | a document holding both sections as mappings has each found under its name |
| Config.LoadSections | http-tunnel.py:21-82 | a document whose two sections are mappings with no ill-typed option and no ill-typed tunnel item loads as the proxy record and the scanned routes |
| Config.BoolPortSection | http-tunnel.py:46-54 | a proxy section whose only option is a `true` port passes, with port 1 and the other defaults |
| Config.EmptyDocument | http-tunnel.py:24-54 | an empty document loads the default proxy with no tunnels |
| Config.NonMappingDocument | http-tunnel.py:24-28 | a truthy document that is not a mapping fails at `.get` with nothing logged |
| Config.TunnelsNotDictCrashes | http-tunnel.py:36-64 | a non-dict tunnels section is logged, does not make validation fail, and fails at `.items()` |
| Config.ProxyNotDictFails | http-tunnel.py:28-44 | a non-dict proxy section raises TypeError after both sections have been checked and logged |
| Ascii.Encode | http-tunnel.py:108-111 | encoding to ASCII succeeds iff every character is below 128, keeping the length |
| Ascii.Decode | http-tunnel.py:113 | decoding from ASCII succeeds iff every byte is below 128, keeping the length |
| Ascii.DecodeEncode | http-tunnel.py:108-113 | decoding the ASCII encoding of a string gives the string back |
| Ascii.EncodeDecode | http-tunnel.py:108-113 | encoding the ASCII decoding of bytes gives the bytes back |
| Ascii.EncodeAppend | http-tunnel.py:105-111 | ASCII encoding distributes over concatenation |
| PyStr.Split | http-tunnel.py:115 | every field `str.split()` returns is non-empty and free of whitespace |
| PyStr.SplitSkipsSpace | http-tunnel.py:115 | leading whitespace contributes no field |
| PyStr.SplitField | http-tunnel.py:115 | a whitespace-free word followed by whitespace or the end is returned as one field |
| PyStr.SplitJoin | http-tunnel.py:115 | splitting fields joined by single spaces returns the fields |
| PyStr.SplitEmpty | http-tunnel.py:115 | `str.split()` returns no field iff the string is all whitespace |
| PyStr.SplitFirst | http-tunnel.py:115 | a string with a field is whitespace, that field, and a rest starting with whitespace whose fields are the remaining ones |
| PyStr.SplitTwoFields | http-tunnel.py:115 | whitespace, a field, whitespace, a field and a rest starting with whitespace split into those two fields first |
| PyStr.TwoFieldsOfSplit | http-tunnel.py:115 | a string with at least two fields has that shape, with the first two fields of the split |
| PyStr.SplitFewFields | http-tunnel.py:115 | whitespace around at most one field splits into fewer than two fields |
| PyStr.FewFieldsOfSplit | http-tunnel.py:115 | a string with fewer than two fields has that shape |
| Base64.Encode | http-tunnel.py:108 | the encoding has 4 characters per started group of 3 bytes, all from the alphabet or `=` |
| Base64.DecodeEncode | http-tunnel.py:108 | decoding the encoding of any byte string gives it back |
| Base64.EncodeDecode | http-tunnel.py:108 | every string the canonical decoder accepts is the encoding of its result |
| Base64.ShortVectors | http-tunnel.py:108 | the encodings of "", "f", "fo" and "foo" are those of section 10 of RFC 4648 |
| Base64.PaddedLongVectors | http-tunnel.py:108 | the encodings of "foob" and "fooba" are those of section 10 of RFC 4648 |
| Base64.TwoGroupVector | http-tunnel.py:108 | the encoding of "foobar" is that of section 10 of RFC 4648 |
| Base64.AlphabetEndVectors | http-tunnel.py:108 | sextets 62 and 63 encode as `+` and `/` |
| Handshake.RequestText | http-tunnel.py:105-110 | the request text always ends with an empty line |
| Handshake.ConnectRequestShape | http-tunnel.py:105-111 | the request can be sent iff the remote is ASCII and, when a user is set, so is `user:password`; it is then the request line, the keep-alive header, the credential line iff the user is non-empty, and the empty line |
| Handshake.CredentialToken | http-tunnel.py:107-109 | the Basic token decodes back to the ASCII bytes of `user:password` and has length 4*ceil(n/3) |
| Handshake.FindFrom | http-tunnel.py:113 | the search returns the first occurrence at or after the start, or none when there is none |
| Handshake.ReadUntilSplits | http-tunnel.py:113 | `readuntil` fails iff the marker never occurs; otherwise block plus leftover is the input, the block ends with the marker, and the marker occurs nowhere earlier |
| Handshake.FirstLine | http-tunnel.py:113 | `split(b'\r\n')[0]` is a prefix of the block containing no CRLF, followed by CRLF or by the end of the block |
| Handshake.PrefixFree | http-tunnel.py:113 | a pattern occurring nowhere before position `n` occurs nowhere in the first `n` bytes |
| Handshake.Judge | http-tunnel.py:113-119 | the tunnel is accepted only when the first line decodes as ASCII and its second field is exactly `200`; the verdict is a decode failure iff the first line is not ASCII |
| Handshake.JudgeTwoFields | http-tunnel.py:113-119 | a first line of at least two fields is accepted iff its second field is `200`, and refused otherwise |
| Handshake.JudgeFewFields | http-tunnel.py:113-115 | a first line of at most one field fails at `split()[1]` |
| Handshake.JudgedLine | http-tunnel.py:113-119 | an accepted or refused reply has an ASCII first line of at least two fields, accepted iff the second is `200` |
| Handshake.TooFewFieldsLine | http-tunnel.py:113-115 | a reply failing at `split()[1]` has an ASCII first line of at most one field |
| Handshake.StatusLineVerdict | http-tunnel.py:115 | for `version SP code SP reason` the first two fields are version and code, so acceptance holds iff the code is `200` |
| Handshake.FindAtFirstCR | http-tunnel.py:113 | a pattern starting with CR is found at its occurrence when no CR precedes it |
| Handshake.StatusLineReply | http-tunnel.py:113-119 | a status line plus empty line splits off exactly, leaving the later bytes, and is accepted iff the code is `200` |
| Relay.TransferCopies | http-tunnel.py:84-92 | the bytes written are the reads before the first empty read or error, unmodified and in order; the writer is closed once, last, iff an empty read ended the loop |
| Relay.TransferIgnoresLaterReads | http-tunnel.py:85-88 | reads after the one that ends the loop change nothing |
| Relay.TransferExtends | http-tunnel.py:85-90 | while the loop waits, further reads only append to what it writes |
| Relay.Pump | http-tunnel.py:84-92 | the loop performs exactly the writer calls of `Relay.Transfer`: it writes the bytes read before the first empty read, closes the writer exactly once at the end iff an empty read was seen, and waits iff the reads ran out |
| Relay.Chunks | http-tunnel.py:86 | a 4096-byte read takes buffered bytes in non-empty pieces of at most 4096 bytes |
| Relay.ChunksConcat | http-tunnel.py:86 | the pieces together are the buffered bytes |
| Relay.BufferedBytesFirst | http-tunnel.py:113-117 | bytes left in the proxy reader after the handshake are written to the client first and whole |
| Session.Handle | http-tunnel.py:100-122 | the handshake writes nothing to the proxy but the CONNECT request, at most once, and every outcome reached after sending it (tunnel, refusal, failed or pending reply) carries that request |
| Session.TunnelIff | http-tunnel.py:100-117 | both relay tasks start iff `open_connection` connected, the request encoded, the header block arrived and the second field is `200`; the request sent is then the CONNECT request and block plus leftover is the reply |
| Session.ConnectErrors | http-tunnel.py:100-122 | an `OSError` from `open_connection` closes the client with nothing sent to the proxy; any other exception there closes nothing and sends nothing |
| Session.RefusalClosesClient | http-tunnel.py:113-119 | a reply whose ASCII first line has a second field other than `200` closes the client, and the proxy has received only the request |
| Session.MalformedReply | http-tunnel.py:113-115 | a first line that is not ASCII ends the callback with `UnicodeDecodeError`, one of fewer than two fields with `IndexError`, after the request was written |
| Session.MalformedReplyClosesNothing | http-tunnel.py:113-122 | after such a reply the client writer is untouched and the proxy writer has received only the request and is not closed |
| Session.NoRelayWithoutTunnel | http-tunnel.py:113-122 | without a tunnel nothing is relayed: the proxy sees at most the request and is never closed, the client sees at most one close |
| Session.TunnelRelaysClient | http-tunnel.py:84-117 | with a tunnel the proxy receives the request then the client's bytes up to its end of stream, and is closed iff the client's stream ended |
| Session.TunnelRelays | http-tunnel.py:84-117 | with a tunnel and the proxy stream open, the client receives the leftover then the proxy's later bytes and is closed iff the proxy's stream ended; after the proxy's end of stream it receives the leftover and is closed; after a reset it receives nothing and is not closed |
| Session.ProxyDirection | http-tunnel.py:84-92 | what the proxy-to-client relay writes from the leftover and the later reads, for each state of the proxy stream |
| Session.ClosedAtMostOnce | http-tunnel.py:84-122 | in every outcome each writer is closed at most once |
| Session.StatusOnlyReply | http-tunnel.py:113-119 | a reply of one status line starts the tunnel with no leftover when the code is `200` and otherwise closes the client after the request |
| Session.SendableWithoutUser | http-tunnel.py:105-111 | with no user configured, an ASCII remote suffices for the request to be sent |
| Session.ExampleConfig | http-tunnel.py:21-82 | the document with the default proxy and route 2222 to 10.0.0.5:22 loads as that route |
| Session.ExampleEstablished | http-tunnel.py:105-117 | through the default proxy without credentials to any ASCII remote, after `HTTP/1.1 200 Connection established` the client's bytes reach the proxy verbatim after the request, followed by a close when the client ends |
| Session.ExampleRefused | http-tunnel.py:113-119 | through the default proxy without credentials to any ASCII remote, after `HTTP/1.1 407 Proxy Authentication Required` the client is closed and the proxy has received only the request |

## Left out

- The event loop and sockets: `open_connection`, `start_server`, `get_extra_info`, `create_task`, `run_forever`. How the connection attempt ends and every read result are inputs instead; in particular the model does not derive from the configured host and port which exception `open_connection` raises.
- `TunnelServer.start`, which opens one listener per route: it is socket setup with no decision in it.
- Concurrency: the two relay directions of a session and different sessions run interleaved in the program; the model treats each direction as an independent sequential function.
- YAML parsing and opening the configuration file: the model starts from the parsed value.
- Signal handlers, argument parsing and logger setup (lines 125-163), and the content of log lines other than the `log.critical` reports of `load_config`.
- The 64 KiB limit of `StreamReader.readuntil`, beyond which it raises `LimitOverrunError`: a header block of any length is accepted in the model.
- Exceptions from `writer.write` on a closed transport and back-pressure (`drain` is never called): every write is taken to succeed.
- How the proxy's bytes are grouped into reads after the handshake: the leftover bytes are read in pieces of 4096 bytes before any later read, whereas one `read(4096)` may return leftover bytes and newly arrived ones together; the later reads are an input.
- A change of the proxy stream's state between `readuntil` returning and the leftover being drained: the state seen by `readuntil` (`ProxyReply.end`) holds for the whole relay, so a reset or end of stream arriving while leftover bytes are still buffered is not modelled; while the stream is open, its later end is part of the later reads.
- Config.ScanReportsEveryProblem: states which problems are reported, not the order in which the loop logs them.
- Equality of dict keys: an `Other` key (float, date, timestamp, binary) is compared by type name and truth value only, so a float key equal to an int (`1.0 == 1`) is not merged with it; a list or mapping key, which PyYAML rejects as unhashable while building the dict, is accepted.

=== FILE: ascii.dfy ===
/** Bytes and the `'ascii'` codec: `str.encode('ascii')` / `bytearray(s, 'ascii')`
    and `bytes.decode('ascii')`. */
module Ascii {
  import opened Wrappers

  type byte = x: int | 0 <= x < 256

  predicate IsAsciiChar(c: char) {
    c as int < 128
  }

  predicate IsAscii(s: string) {
    forall i :: 0 <= i < |s| ==> IsAsciiChar(s[i])
  }

  predicate IsAsciiBytes(b: seq<byte>) {
    forall i :: 0 <= i < |b| ==> b[i] < 128
  }

  lemma AsciiAppend(s: string, t: string)
    requires IsAscii(s) && IsAscii(t)
    ensures IsAscii(s + t)
  {
    forall i | 0 <= i < |s + t| ensures IsAsciiChar((s + t)[i]) {
      if i < |s| { assert (s + t)[i] == s[i]; } else { assert (s + t)[i] == t[i - |s|]; }
    }
  }

  /** `bytearray(s, 'ascii')`: fails (UnicodeEncodeError) on the first
      character outside ASCII. */
  function Encode(s: string): (r: Option<seq<byte>>)
    ensures r.Some? <==> IsAscii(s)
    ensures r.Some? ==> |r.value| == |s| && IsAsciiBytes(r.value)
  {
    if IsAscii(s) then Some(seq(|s|, i requires 0 <= i < |s| => s[i] as int as byte))
    else None
  }

  /** `b.decode('ascii')`: fails (UnicodeDecodeError) on the first byte
      above 0x7F. */
  function Decode(b: seq<byte>): (r: Option<string>)
    ensures r.Some? <==> IsAsciiBytes(b)
    ensures r.Some? ==> |r.value| == |b| && IsAscii(r.value)
  {
    if IsAsciiBytes(b) then Some(seq(|b|, i requires 0 <= i < |b| => b[i] as char))
    else None
  }

  /** The two codecs are inverse to each other, in both directions. */
  lemma DecodeEncode(s: string)
    requires IsAscii(s)
    ensures Encode(s).Some? && Decode(Encode(s).value) == Some(s)
  {
    var b := Encode(s).value;
    assert Decode(b).value == s;
  }

  lemma EncodeDecode(b: seq<byte>)
    requires IsAsciiBytes(b)
    ensures Decode(b).Some? && Encode(Decode(b).value) == Some(b)
  {
    var s := Decode(b).value;
    assert Encode(s).value == b;
  }

  /** Encoding works character by character, so it distributes over `+`. */
  lemma EncodeAppend(s: string, t: string)
    requires IsAscii(s) && IsAscii(t)
    ensures Encode(s + t).Some?
    ensures Encode(s + t).value == Encode(s).value + Encode(t).value
  {
    AsciiAppend(s, t);
    var l, r := Encode(s + t).value, Encode(s).value + Encode(t).value;
    assert |l| == |r|;
    forall i | 0 <= i < |l| ensures l[i] == r[i] {
      if i < |s| { assert (s + t)[i] == s[i]; } else { assert (s + t)[i] == t[i - |s|]; }
    }
  }
}

=== FILE: base64.dfy ===
/** Base64 with the standard alphabet and `=` padding, as defined in
    section 4 of RFC 4648: every 3 input bytes become 4 characters of the
    64-character alphabet, and a final group of 1 or 2 bytes is padded to 4
    characters with `=`. */
module Base64 {
  import opened Wrappers
  import opened Ascii

  type sextet = x: int | 0 <= x < 64

  /** Table 1 of RFC 4648. */
  function CharOf(v: sextet): (c: char)
    ensures IsAsciiChar(c) && c != '='
  {
    if v < 26 then (65 + v) as char
    else if v < 52 then (97 + v - 26) as char
    else if v < 62 then (48 + v - 52) as char
    else if v == 62 then '+'
    else '/'
  }

  /** The inverse of the alphabet table; `None` for any other character. */
  function ValueOf(c: char): Option<sextet> {
    if 'A' <= c <= 'Z' then Some(c as int - 65)
    else if 'a' <= c <= 'z' then Some(c as int - 97 + 26)
    else if '0' <= c <= '9' then Some(c as int - 48 + 52)
    else if c == '+' then Some(62)
    else if c == '/' then Some(63)
    else None
  }

  lemma ValueOfCharOf(v: sextet)
    ensures ValueOf(CharOf(v)) == Some(v)
  {
  }

  lemma CharOfValueOf(c: char)
    requires ValueOf(c).Some?
    ensures CharOf(ValueOf(c).value) == c
  {
  }

  /** The four 6-bit groups of the 24 bits `b0 b1 b2`, most significant
      first. */
  function Sextet0(b0: byte): sextet { b0 / 4 }
  function Sextet1(b0: byte, b1: byte): sextet { (b0 % 4) * 16 + b1 / 16 }
  function Sextet2(b1: byte, b2: byte): sextet { (b1 % 16) * 4 + b2 / 64 }
  function Sextet3(b2: byte): sextet { b2 % 64 }

  /** The three bytes of the 24 bits `c0 c1 c2 c3`. */
  function Byte0(c0: sextet, c1: sextet): byte { (c0 as int) * 4 + (c1 as int) / 16 }
  function Byte1(c1: sextet, c2: sextet): byte { ((c1 as int) % 16) * 16 + (c2 as int) / 4 }
  function Byte2(c2: sextet, c3: sextet): byte { ((c2 as int) % 4) * 64 + c3 as int }

  lemma BytesOfSextets(b0: byte, b1: byte, b2: byte)
    ensures Byte0(Sextet0(b0), Sextet1(b0, b1)) == b0
    ensures Byte1(Sextet1(b0, b1), Sextet2(b1, b2)) == b1
    ensures Byte2(Sextet2(b1, b2), Sextet3(b2)) == b2
  {
  }

  lemma SextetsOfBytes(c0: sextet, c1: sextet, c2: sextet, c3: sextet)
    ensures Sextet0(Byte0(c0, c1)) == c0
    ensures Sextet1(Byte0(c0, c1), Byte1(c1, c2)) == c1
    ensures Sextet2(Byte1(c1, c2), Byte2(c2, c3)) == c2
    ensures Sextet3(Byte2(c2, c3)) == c3
  {
  }

  /** With zero pad bits the shortened quanta re-encode exactly. */
  lemma SextetsOfPadded(c0: sextet, c1: sextet, c2: sextet)
    ensures c1 % 16 == 0 ==> Sextet1(Byte0(c0, c1), 0) == c1
    ensures c2 % 4 == 0 ==> Sextet2(Byte1(c1, c2), 0) == c2
  {
  }

  /** Three bytes become four characters. */
  function Quad(b0: byte, b1: byte, b2: byte): string {
    [CharOf(Sextet0(b0)), CharOf(Sextet1(b0, b1)), CharOf(Sextet2(b1, b2)), CharOf(Sextet3(b2))]
  }

  /** A final quantum of two bytes: 16 bits, zero-filled to 18, one `=`. */
  function QuadOfTwo(b0: byte, b1: byte): string {
    [CharOf(Sextet0(b0)), CharOf(Sextet1(b0, b1)), CharOf(Sextet2(b1, 0)), '=']
  }

  /** A final quantum of one byte: 8 bits, zero-filled to 12, two `=`. */
  function QuadOfOne(b0: byte): string {
    [CharOf(Sextet0(b0)), CharOf(Sextet1(b0, 0)), '=', '=']
  }

  predicate IsEncodingChar(c: char) {
    ValueOf(c).Some? || c == '='
  }

  function Encode(b: seq<byte>): (s: string)
    ensures |s| == 4 * ((|b| + 2) / 3)
    ensures forall i :: 0 <= i < |s| ==> IsEncodingChar(s[i])
  {
    if |b| == 0 then ""
    else if |b| == 1 then QuadOfOne(b[0])
    else if |b| == 2 then QuadOfTwo(b[0], b[1])
    else Quad(b[0], b[1], b[2]) + Encode(b[3..])
  }

  /** Four alphabet characters back to three bytes. */
  function DecodeQuad(q: string): Option<seq<byte>>
    requires |q| == 4
  {
    match (ValueOf(q[0]), ValueOf(q[1]), ValueOf(q[2]), ValueOf(q[3]))
    case (Some(c0), Some(c1), Some(c2), Some(c3)) =>
      Some([Byte0(c0, c1), Byte1(c1, c2), Byte2(c2, c3)])
    case _ => None
  }

  /** The last quantum, which may carry padding.  Non-zero pad bits are
      rejected, so that only canonical encodings decode (section 3.5 of
      RFC 4648). */
  function DecodeLast(q: string): Option<seq<byte>>
    requires |q| == 4
  {
    if q[2] == '=' && q[3] == '=' then
      match (ValueOf(q[0]), ValueOf(q[1]))
      case (Some(c0), Some(c1)) =>
        if c1 % 16 == 0 then Some([Byte0(c0, c1)]) else None
      case _ => None
    else if q[3] == '=' then
      match (ValueOf(q[0]), ValueOf(q[1]), ValueOf(q[2]))
      case (Some(c0), Some(c1), Some(c2)) =>
        if c2 % 4 == 0 then Some([Byte0(c0, c1), Byte1(c1, c2)]) else None
      case _ => None
    else DecodeQuad(q)
  }

  function Decode(s: string): Option<seq<byte>>
    decreases |s|
  {
    if |s| == 0 then Some([])
    else if |s| < 4 then None
    else if |s| == 4 then DecodeLast(s)
    else
      match (DecodeQuad(s[..4]), Decode(s[4..]))
      case (Some(head), Some(tail)) => Some(head + tail)
      case _ => None
  }

  lemma QuadRoundTrip(b0: byte, b1: byte, b2: byte)
    ensures DecodeQuad(Quad(b0, b1, b2)) == Some([b0, b1, b2])
  {
    ValueOfCharOf(Sextet0(b0));
    ValueOfCharOf(Sextet1(b0, b1));
    ValueOfCharOf(Sextet2(b1, b2));
    ValueOfCharOf(Sextet3(b2));
    BytesOfSextets(b0, b1, b2);
  }

  lemma OneRoundTrip(b0: byte)
    ensures DecodeLast(QuadOfOne(b0)) == Some([b0])
  {
    PaddedOneByte(Sextet0(b0), Sextet1(b0, 0));
    BytesOfSextets(b0, 0, 0);
  }

  lemma PaddedOneByte(c0: sextet, c1: sextet)
    requires c1 % 16 == 0
    ensures DecodeLast([CharOf(c0), CharOf(c1), '=', '=']) == Some([Byte0(c0, c1)])
  {
    ValueOfCharOf(c0);
    ValueOfCharOf(c1);
  }

  lemma TwoRoundTrip(b0: byte, b1: byte)
    ensures DecodeLast(QuadOfTwo(b0, b1)) == Some([b0, b1])
  {
    ValueOfCharOf(Sextet0(b0));
    ValueOfCharOf(Sextet1(b0, b1));
    ValueOfCharOf(Sextet2(b1, 0));
    BytesOfSextets(b0, b1, 0);
    var q := QuadOfTwo(b0, b1);
    assert q[2] != '=' && q[3] == '=';
  }

  /** Decoding undoes encoding. */
  lemma {:induction false} DecodeEncode(b: seq<byte>)
    ensures Decode(Encode(b)) == Some(b)
    decreases |b|
  {
    if |b| == 1 {
      OneRoundTrip(b[0]);
      assert b == [b[0]];
    } else if |b| == 2 {
      TwoRoundTrip(b[0], b[1]);
      assert b == [b[0], b[1]];
    } else if |b| == 3 {
      QuadRoundTrip(b[0], b[1], b[2]);
      assert b[3..] == [];
      assert Encode(b) == Quad(b[0], b[1], b[2]);
      assert b == [b[0], b[1], b[2]];
    } else if |b| > 3 {
      var q, rest := Quad(b[0], b[1], b[2]), Encode(b[3..]);
      assert Encode(b) == q + rest;
      assert (q + rest)[..4] == q;
      assert (q + rest)[4..] == rest;
      QuadRoundTrip(b[0], b[1], b[2]);
      DecodeEncode(b[3..]);
      assert b == [b[0], b[1], b[2]] + b[3..];
    }
  }

  lemma DecodeQuadCanonical(q: string)
    requires |q| == 4 && DecodeQuad(q).Some?
    ensures var d := DecodeQuad(q).value; |d| == 3 && Quad(d[0], d[1], d[2]) == q
  {
    var c0, c1, c2, c3 := ValueOf(q[0]).value, ValueOf(q[1]).value, ValueOf(q[2]).value, ValueOf(q[3]).value;
    SextetsOfBytes(c0, c1, c2, c3);
    CharOfValueOf(q[0]);
    CharOfValueOf(q[1]);
    CharOfValueOf(q[2]);
    CharOfValueOf(q[3]);
  }

  /** Every string the decoder accepts is the encoding of what it decodes
      to: together with `DecodeEncode`, the two functions are inverse
      bijections between byte strings and canonical Base64 text. */
  lemma {:induction false} EncodeDecode(s: string)
    requires Decode(s).Some?
    ensures Encode(Decode(s).value) == s
    decreases |s|
  {
    if |s| == 4 {
      if s[2] == '=' && s[3] == '=' {
        var c0, c1 := ValueOf(s[0]).value, ValueOf(s[1]).value;
        SextetsOfBytes(c0, c1, 0, 0);
        SextetsOfPadded(c0, c1, 0);
        CharOfValueOf(s[0]);
        CharOfValueOf(s[1]);
      } else if s[3] == '=' {
        var c0, c1, c2 := ValueOf(s[0]).value, ValueOf(s[1]).value, ValueOf(s[2]).value;
        SextetsOfBytes(c0, c1, c2, 0);
        SextetsOfPadded(c0, c1, c2);
        CharOfValueOf(s[0]);
        CharOfValueOf(s[1]);
        CharOfValueOf(s[2]);
      } else {
        DecodeQuadCanonical(s);
        var d := DecodeQuad(s).value;
        assert d[3..] == [];
      }
    } else if |s| > 4 {
      DecodeQuadCanonical(s[..4]);
      var head, tail := DecodeQuad(s[..4]).value, Decode(s[4..]).value;
      EncodeDecode(s[4..]);
      var d := head + tail;
      assert d[..3] == head && d[3..] == tail;
      assert s == s[..4] + s[4..];
    }
  }

  /** The test vectors of section 10 of RFC 4648 up to one group: "",
      "f", "fo" and "foo". */
  lemma ShortVectors()
    ensures Encode([]) == ""
    ensures Encode([102]) == "Zg=="
    ensures Encode([102, 111]) == "Zm8="
    ensures Encode([102, 111, 111]) == "Zm9v"
  {
  }

  /** The test vectors of section 10 of RFC 4648 that end in padding
      after a full group: "foob" and "fooba". */
  lemma PaddedLongVectors()
    ensures Encode([102, 111, 111, 98]) == "Zm9vYg=="
    ensures Encode([102, 111, 111, 98, 97]) == "Zm9vYmE="
  {
  }

  /** The last test vector of section 10 of RFC 4648: "foobar". */
  lemma TwoGroupVector()
    ensures Encode([102, 111, 111, 98, 97, 114]) == "Zm9vYmFy"
  {
  }

  /** The last two characters of the alphabet: 62 is `+` and 63 is `/`. */
  lemma AlphabetEndVectors()
    ensures Encode([255, 254, 63]) == "//4/"
    ensures Encode([251, 239, 190]) == "++++"
  {
  }
}

=== FILE: config.dfy ===
/** Validation of the configuration document (`TunnelServer.load_config`).
    The input is the value `yaml.safe_load` produced; reading the file and
    parsing YAML are not part of this model. */
module Config {
  import opened Wrappers

  /** A parsed YAML value, with Python's run-time types.  A mapping is kept
      as the key/value pairs of the document, in document order; the Python
      dict PyYAML builds from them by successive assignment is `Items`
      below, and a key that repeats holds the value of its last pair.
      `Other` stands for the remaining scalar types (float, date,
      timestamp, binary): only their type name and their truth value matter
      here. */
  datatype Value =
    | Null
    | Bool(b: bool)
    | Int(i: int)
    | Str(s: string)
    | List(items: seq<Value>)
    | Map(entries: seq<(Value, Value)>)
    | Other(typeName: string, truthy: bool)

  /** `type(v).__name__`, as it appears in the log messages. */
  function TypeName(v: Value): string {
    match v
    case Null => "NoneType"
    case Bool(_) => "bool"
    case Int(_) => "int"
    case Str(_) => "str"
    case List(_) => "list"
    case Map(_) => "dict"
    case Other(name, _) => name
  }

  /** Python truth value. */
  predicate Truthy(v: Value) {
    match v
    case Null => false
    case Bool(b) => b
    case Int(i) => i != 0
    case Str(s) => |s| > 0
    case List(items) => |items| > 0
    case Map(entries) => |entries| > 0
    case Other(_, t) => t
  }

  /** `isinstance(v, int)`: `bool` is a subclass of `int` in Python. */
  predicate IsInt(v: Value) {
    v.Int? || v.Bool?
  }

  /** The integer a value that passes `isinstance(v, int)` stands for. */
  function IntValue(v: Value): int
    requires IsInt(v)
  {
    if v.Int? then v.i else if v.b then 1 else 0
  }

  /** Python's `==` on two dict keys: ints and bools compare by number
      (`True == 1`), all other values by their contents. */
  predicate SameKey(a: Value, b: Value) {
    if IsInt(a) && IsInt(b) then IntValue(a) == IntValue(b) else a == b
  }

  /** `d[k]` on the pairs of a mapping: the value of the last pair whose key
      equals `k`, as successive assignment leaves it. */
  function Lookup(entries: seq<(Value, Value)>, k: Value): (r: Option<Value>)
    ensures r.None? <==> forall i :: 0 <= i < |entries| ==> !SameKey(entries[i].0, k)
    ensures r.Some? ==> exists i :: 0 <= i < |entries| && SameKey(entries[i].0, k) && entries[i].1 == r.value
                                    && forall j :: i < j < |entries| ==> !SameKey(entries[j].0, k)
  {
    if |entries| == 0 then None
    else
      var last := entries[|entries| - 1];
      if SameKey(last.0, k) then Some(last.1)
      else Lookup(entries[..|entries| - 1], k)
  }

  /** `d.get(key)` for a string key: a string equals only the same string. */
  function Get(entries: seq<(Value, Value)>, key: string): (r: Option<Value>)
    ensures r.None? <==> forall i :: 0 <= i < |entries| ==> entries[i].0 != Str(key)
    ensures r.Some? ==> exists i :: 0 <= i < |entries| && entries[i] == (Str(key), r.value)
                                    && forall j :: i < j < |entries| ==> entries[j].0 != Str(key)
  {
    Lookup(entries, Str(key))
  }

  /** The position of the first item whose key equals `k`. */
  function KeyIndex(items: seq<(Value, Value)>, k: Value): (r: Option<nat>)
    ensures r.Some? ==> r.value < |items| && SameKey(items[r.value].0, k)
    ensures r.Some? ==> forall i :: 0 <= i < r.value ==> !SameKey(items[i].0, k)
    ensures r.None? <==> forall i :: 0 <= i < |items| ==> !SameKey(items[i].0, k)
  {
    if |items| == 0 then None
    else if SameKey(items[0].0, k) then Some(0)
    else match KeyIndex(items[1..], k)
      case None => None
      case Some(i) => Some(i + 1)
  }

  /** `d[k] = v` on a dict given as its items in insertion order: a key
      already present keeps its place and its first spelling and takes the
      new value; a new key goes last. */
  function Assign(items: seq<(Value, Value)>, k: Value, v: Value): seq<(Value, Value)> {
    match KeyIndex(items, k)
    case None => items + [(k, v)]
    case Some(i) => items[i := (items[i].0, v)]
  }

  /** The items of the dict PyYAML builds from the pairs of a mapping. */
  function Items(entries: seq<(Value, Value)>): seq<(Value, Value)> {
    if |entries| == 0 then []
    else
      var last := entries[|entries| - 1];
      Assign(Items(entries[..|entries| - 1]), last.0, last.1)
  }

  /** No two items have equal keys. */
  predicate DistinctKeys(items: seq<(Value, Value)>) {
    forall i, j :: 0 <= i < j < |items| ==> !SameKey(items[i].0, items[j].0)
  }

  /** Keys equal to each other look up the same value. */
  lemma {:induction false} LookupSameKey(entries: seq<(Value, Value)>, a: Value, b: Value)
    requires SameKey(a, b)
    ensures Lookup(entries, a) == Lookup(entries, b)
  {
    if |entries| > 0 {
      LookupSameKey(entries[..|entries| - 1], a, b);
    }
  }

  /** One assignment: earlier keys keep their places, the assigned key is
      present afterwards, and keys stay distinct.  The item with a key
      equal to the assigned one holds the new value; every other item is
      unchanged. */
  lemma AssignShape(items: seq<(Value, Value)>, k: Value, v: Value)
    requires DistinctKeys(items)
    ensures var e := Assign(items, k, v);
            && |items| <= |e| <= |items| + 1
            && (forall i :: 0 <= i < |items| ==> e[i].0 == items[i].0)
            && (|e| == |items| + 1 ==> e[|items|].0 == k)
            && KeyIndex(e, k).Some?
            && DistinctKeys(e)
            && (forall i :: 0 <= i < |e| && SameKey(e[i].0, k) ==> e[i].1 == v)
            && (forall i :: 0 <= i < |e| && !SameKey(e[i].0, k) ==> i < |items| && e[i] == items[i])
  {
    var e := Assign(items, k, v);
    if KeyIndex(items, k).None? {
      assert e[|items|] == (k, v);
    }
  }

  /** The dict has no two equal keys. */
  lemma {:induction false} ItemsDistinct(entries: seq<(Value, Value)>)
    ensures DistinctKeys(Items(entries))
  {
    if |entries| > 0 {
      var n := |entries| - 1;
      ItemsDistinct(entries[..n]);
      AssignShape(Items(entries[..n]), entries[n].0, entries[n].1);
    }
  }

  /** Every key of the mapping is a key of the dict. */
  lemma {:induction false} ItemsCover(entries: seq<(Value, Value)>)
    ensures forall j :: 0 <= j < |entries| ==> KeyIndex(Items(entries), entries[j].0).Some?
  {
    if |entries| > 0 {
      var n := |entries| - 1;
      var init := entries[..n];
      var d := Items(init);
      var (k, v) := entries[n];
      ItemsCover(init);
      AssignFinds(d, k, v);
      assert Items(entries) == Assign(d, k, v);
      forall j | 0 <= j < n
        ensures KeyIndex(Assign(d, k, v), entries[j].0).Some?
      {
        assert init[j] == entries[j];
        AssignKeeps(d, k, v, entries[j].0);
      }
    }
  }

  /** After `d[k] = v` the key `k` is present. */
  lemma AssignFinds(items: seq<(Value, Value)>, k: Value, v: Value)
    ensures KeyIndex(Assign(items, k, v), k).Some?
  {
    var e := Assign(items, k, v);
    if KeyIndex(items, k).None? {
      assert e[|items|] == (k, v);
    } else {
      var i := KeyIndex(items, k).value;
      assert e[i].0 == items[i].0;
    }
  }

  /** An assignment keeps every key already present. */
  lemma AssignKeeps(items: seq<(Value, Value)>, k: Value, v: Value, q: Value)
    requires KeyIndex(items, q).Some?
    ensures KeyIndex(Assign(items, k, v), q).Some?
  {
    var m := KeyIndex(items, q).value;
    var e := Assign(items, k, v);
    assert e[m].0 == items[m].0;
  }

  /** The dict has no more items than the mapping has pairs, and each of
      its keys is spelled as one of the mapping's keys. */
  lemma {:induction false} ItemsFromPairs(entries: seq<(Value, Value)>)
    ensures |Items(entries)| <= |entries|
    ensures forall i :: 0 <= i < |Items(entries)| ==>
              exists j :: 0 <= j < |entries| && entries[j].0 == Items(entries)[i].0
  {
    if |entries| > 0 {
      var n := |entries| - 1;
      var init := entries[..n];
      var d := Items(init);
      ItemsFromPairs(init);
      ItemsDistinct(init);
      AssignShape(d, entries[n].0, entries[n].1);
      var items := Assign(d, entries[n].0, entries[n].1);
      assert Items(entries) == items;
      forall i | 0 <= i < |items|
        ensures exists j :: 0 <= j < |entries| && entries[j].0 == items[i].0
      {
        if i < |d| {
          assert 0 <= i < |Items(init)|;
          var j :| 0 <= j < |init| && init[j].0 == d[i].0;
          assert entries[j].0 == items[i].0;
        } else {
          assert entries[n].0 == items[i].0;
        }
      }
    }
  }

  /** A lookup sees the last pair first. */
  lemma LookupLast(init: seq<(Value, Value)>, k: Value, v: Value, q: Value)
    ensures Lookup(init + [(k, v)], q) == if SameKey(k, q) then Some(v) else Lookup(init, q)
  {
    assert (init + [(k, v)])[..|init|] == init;
  }

  /** Each item holds the value of the last pair whose key equals its key. */
  lemma {:induction false} ItemsValues(entries: seq<(Value, Value)>)
    ensures var items := Items(entries);
            forall i :: 0 <= i < |items| ==> Lookup(entries, items[i].0) == Some(items[i].1)
  {
    if |entries| > 0 {
      var n := |entries| - 1;
      var init := entries[..n];
      var (k, v) := entries[n];
      var d := Items(init);
      assert entries == init + [(k, v)];
      ItemsValues(init);
      ItemsDistinct(init);
      AssignShape(d, k, v);
      var items := Assign(d, k, v);
      assert Items(entries) == items;
      forall i | 0 <= i < |items|
        ensures Lookup(entries, items[i].0) == Some(items[i].1)
      {
        LookupLast(init, k, v, items[i].0);
        assert SameKey(k, items[i].0) == SameKey(items[i].0, k);
        if SameKey(items[i].0, k) {
          assert items[i].1 == v;
        } else {
          assert i < |d| && items[i] == d[i];
          assert 0 <= i < |Items(init)| && Items(init)[i] == d[i];
          assert Lookup(init, d[i].0) == Some(d[i].1);
        }
      }
    }
  }

  /** `d.get(key, default)`. */
  function GetOr(entries: seq<(Value, Value)>, key: string, default: Value): Value {
    match Get(entries, key)
    case Some(v) => v
    case None => default
  }

  /** `yaml.safe_load(f) or {}`: an empty or falsy document counts as an
      empty mapping. */
  function Document(doc: Value): Value {
    if Truthy(doc) then doc else Map([])
  }

  /** `config.get(name, {})` for the two top-level sections. */
  function Section(config: seq<(Value, Value)>, name: string): Value {
    GetOr(config, name, Map([]))
  }

  datatype ProxyConfig = ProxyConfig(host: string, port: int, user: string, password: string)

  const DefaultHost := "127.0.0.1"
  const DefaultPort := 3128

  /** What `load_config` reports through `log.critical` before it fails. */
  datatype Problem =
    | ProxyNotDict(found: string)
    | TunnelsNotDict(found: string)
    | OptionType(option: string, expected: string, found: string)
    | TunnelKeyType(found: string)
    | TunnelValueType(found: string)

  /** How `load_config` ends: it stores a validated configuration, raises
      `TypeError`, or fails with `AttributeError` because it calls `.get`
      or `.items()` on something that is not a dict.  Both failures carry
      the problems logged before them. */
  datatype LoadResult =
    | Loaded(proxy: ProxyConfig, tunnels: map<int, string>)
    | TypeError(logged: seq<Problem>)
    | AttributeError(logged: seq<Problem>)

  /** The type check of one proxy option: `port` must be an int, the others
      strings.  An absent option takes its default, which always passes. */
  predicate OptionWellTyped(proxy: seq<(Value, Value)>, name: string) {
    match Get(proxy, name)
    case None => true
    case Some(v) => if name == "port" then IsInt(v) else v.Str?
  }

  /** The check of a string option: a report iff the value present is
      not a string. */
  function StrOptionProblems(proxy: seq<(Value, Value)>, name: string, default: string): (r: seq<Problem>)
    requires name != "port"
    ensures |r| <= 1
    ensures |r| == 0 <==> OptionWellTyped(proxy, name)
    ensures |r| == 1 ==> Get(proxy, name).Some? && r[0] == OptionType(name, "str", TypeName(Get(proxy, name).value))
  {
    var v := GetOr(proxy, name, Str(default));
    if v.Str? then [] else [OptionType(name, "str", TypeName(v))]
  }

  /** The check of the port: a report iff the value present is not an
      int. */
  function PortProblems(proxy: seq<(Value, Value)>): (r: seq<Problem>)
    ensures |r| <= 1
    ensures |r| == 0 <==> OptionWellTyped(proxy, "port")
    ensures |r| == 1 ==> Get(proxy, "port").Some? && r[0] == OptionType("port", "int", TypeName(Get(proxy, "port").value))
  {
    var v := GetOr(proxy, "port", Int(DefaultPort));
    if IsInt(v) then [] else [OptionType("port", "int", TypeName(v))]
  }

  /** The option loop: `host`, `port`, `user` and `password`, in that
      order, each checked and reported independently of the others. */
  function OptionProblems(proxy: seq<(Value, Value)>): (problems: seq<Problem>)
    ensures |problems| == 0 <==> OptionsWellTyped(proxy)
    ensures |problems| <= 4
  {
    StrOptionProblems(proxy, "host", DefaultHost) + PortProblems(proxy)
    + StrOptionProblems(proxy, "user", "") + StrOptionProblems(proxy, "password", "")
  }

  predicate OptionsWellTyped(proxy: seq<(Value, Value)>) {
    && OptionWellTyped(proxy, "host") && OptionWellTyped(proxy, "port")
    && OptionWellTyped(proxy, "user") && OptionWellTyped(proxy, "password")
  }

  /** Every ill-typed option is reported, with the type it should have and
      the type it has. */
  lemma OptionReportsComplete(proxy: seq<(Value, Value)>)
    ensures var problems := OptionProblems(proxy);
            && (!OptionWellTyped(proxy, "host") ==> OptionType("host", "str", TypeName(Get(proxy, "host").value)) in problems)
            && (!OptionWellTyped(proxy, "port") ==> OptionType("port", "int", TypeName(Get(proxy, "port").value)) in problems)
            && (!OptionWellTyped(proxy, "user") ==> OptionType("user", "str", TypeName(Get(proxy, "user").value)) in problems)
            && (!OptionWellTyped(proxy, "password") ==> OptionType("password", "str", TypeName(Get(proxy, "password").value)) in problems)
  {
    var a := StrOptionProblems(proxy, "host", DefaultHost);
    var b := PortProblems(proxy);
    var c := StrOptionProblems(proxy, "user", "");
    var d := StrOptionProblems(proxy, "password", "");
    assert OptionProblems(proxy) == a + b + c + d;
    PartsReported(a, b, c, d);
  }

  /** A report of any part is a report of their concatenation. */
  lemma PartsReported(a: seq<Problem>, b: seq<Problem>, c: seq<Problem>, d: seq<Problem>)
    ensures |a| == 1 ==> a[0] in a + b + c + d
    ensures |b| == 1 ==> b[0] in a + b + c + d
    ensures |c| == 1 ==> c[0] in a + b + c + d
    ensures |d| == 1 ==> d[0] in a + b + c + d
  {
    var p := a + b + c + d;
    if |a| == 1 { assert p[0] == a[0]; }
    if |b| == 1 { assert p[|a|] == b[0]; }
    if |c| == 1 { assert p[|a| + |b|] == c[0]; }
    if |d| == 1 { assert p[|a| + |b| + |c|] == d[0]; }
  }

  /** Every report names an ill-typed option, and no option is reported
      twice. */
  lemma OptionReportsSound(proxy: seq<(Value, Value)>)
    ensures var problems := OptionProblems(proxy);
            && (forall k :: 0 <= k < |problems| ==>
                  && problems[k].OptionType?
                  && problems[k].option in {"host", "port", "user", "password"}
                  && !OptionWellTyped(proxy, problems[k].option))
            && (forall k, l :: 0 <= k < l < |problems| ==> problems[k].option != problems[l].option)
  {
    var a := StrOptionProblems(proxy, "host", DefaultHost);
    var b := PortProblems(proxy);
    var c := StrOptionProblems(proxy, "user", "");
    var d := StrOptionProblems(proxy, "password", "");
    assert OptionProblems(proxy) == a + b + c + d;
    var bad := set name | name in {"host", "port", "user", "password"} && !OptionWellTyped(proxy, name);
    FourReports(a, b, c, d, bad);
  }

  /** Reports on one option each, one part per option, concatenated: every
      report names an option of `bad`, and no option twice. */
  lemma FourReports(a: seq<Problem>, b: seq<Problem>, c: seq<Problem>, d: seq<Problem>, bad: set<string>)
    requires |a| <= 1 && |b| <= 1 && |c| <= 1 && |d| <= 1
    requires |a| == 1 ==> a[0].OptionType? && a[0].option == "host" && "host" in bad
    requires |b| == 1 ==> b[0].OptionType? && b[0].option == "port" && "port" in bad
    requires |c| == 1 ==> c[0].OptionType? && c[0].option == "user" && "user" in bad
    requires |d| == 1 ==> d[0].OptionType? && d[0].option == "password" && "password" in bad
    ensures var p := a + b + c + d;
            && (forall k :: 0 <= k < |p| ==> p[k].OptionType? && p[k].option in bad)
            && (forall k, l :: 0 <= k < l < |p| ==> p[k].option != p[l].option)
  {
    var p := a + b + c + d;
    var names := (if |a| == 1 then ["host"] else []) + (if |b| == 1 then ["port"] else [])
                 + (if |c| == 1 then ["user"] else []) + (if |d| == 1 then ["password"] else []);
    forall k | 0 <= k < |p|
      ensures p[k].OptionType? && p[k].option == names[k]
    {
      if k < |a| { assert p[k] == a[k]; }
      else if k < |a| + |b| { assert p[k] == b[k - |a|]; }
      else if k < |a| + |b| + |c| { assert p[k] == c[k - |a| - |b|]; }
      else { assert p[k] == d[k - |a| - |b| - |c|]; }
    }
  }

  /** The proxy record built from a section whose options all passed. */
  function ProxyRecord(proxy: seq<(Value, Value)>): ProxyConfig
    requires |OptionProblems(proxy)| == 0
  {
    ProxyConfig(
      GetOr(proxy, "host", Str(DefaultHost)).s,
      IntValue(GetOr(proxy, "port", Int(DefaultPort))),
      GetOr(proxy, "user", Str("")).s,
      GetOr(proxy, "password", Str("")).s)
  }

  /** A tunnel entry passes when its key is an int (port number) and its
      value a string (host:port). */
  predicate EntryWellTyped(e: (Value, Value)) {
    IsInt(e.0) && e.1.Str?
  }

  /** The message for a rejected entry: the key is checked first. */
  function EntryProblem(e: (Value, Value)): Problem
    requires !EntryWellTyped(e)
  {
    if !IsInt(e.0) then TunnelKeyType(TypeName(e.0)) else TunnelValueType(TypeName(e.1))
  }

  datatype TunnelScan = TunnelScan(routes: map<int, string>, problems: seq<Problem>)

  /** The tunnel loop over a sequence of items: every item is visited; rejected ones are
      reported and skipped, accepted ones are stored, a later entry for the
      same port replacing an earlier one. */
  function ScanTunnels(entries: seq<(Value, Value)>): (scan: TunnelScan)
    ensures |scan.problems| == 0 <==> forall i :: 0 <= i < |entries| ==> EntryWellTyped(entries[i])
    ensures forall port :: port in scan.routes <==>
              exists i :: 0 <= i < |entries| && EntryWellTyped(entries[i]) && IntValue(entries[i].0) == port
  {
    if |entries| == 0 then TunnelScan(map[], [])
    else
      var init := entries[..|entries| - 1];
      var scan := ScanTunnels(init);
      var e := entries[|entries| - 1];
      assert forall i :: 0 <= i < |init| ==> init[i] == entries[i];
      if EntryWellTyped(e) then TunnelScan(scan.routes[IntValue(e.0) := e.1.s], scan.problems)
      else TunnelScan(scan.routes, scan.problems + [EntryProblem(e)])
  }

  /** Every rejected entry is reported, and every report stems from a
      rejected entry: the loop does not stop at the first bad entry. */
  lemma {:induction false} ScanReportsEveryProblem(entries: seq<(Value, Value)>)
    ensures var scan := ScanTunnels(entries);
            && |scan.problems| <= |entries|
            && (forall i :: 0 <= i < |entries| && !EntryWellTyped(entries[i]) ==>
                  EntryProblem(entries[i]) in scan.problems)
            && (forall k :: 0 <= k < |scan.problems| ==>
                  exists i :: 0 <= i < |entries| && !EntryWellTyped(entries[i])
                              && scan.problems[k] == EntryProblem(entries[i]))
  {
    if |entries| > 0 {
      var init := entries[..|entries| - 1];
      ScanReportsEveryProblem(init);
      assert forall i :: 0 <= i < |init| ==> init[i] == entries[i];
    }
  }

  /** An accepted entry is stored unchanged under its port, unless a later
      accepted entry names the same port. */
  lemma {:induction false} ScanStoresEntry(entries: seq<(Value, Value)>, i: int)
    requires 0 <= i < |entries| && EntryWellTyped(entries[i]) && LastForPort(entries, i)
    ensures IntValue(entries[i].0) in ScanTunnels(entries).routes
    ensures ScanTunnels(entries).routes[IntValue(entries[i].0)] == entries[i].1.s
  {
    var n := |entries| - 1;
    var init := entries[..n];
    var e := entries[n];
    var port := IntValue(entries[i].0);
    var before := ScanTunnels(init).routes;
    var after := ScanTunnels(entries).routes;
    assert after == if EntryWellTyped(e) then before[IntValue(e.0) := e.1.s] else before;
    if i < n {
      assert init[i] == entries[i];
      assert LastForPort(init, i) by {
        forall j | i < j < |init| && EntryWellTyped(init[j])
          ensures IntValue(init[j].0) != IntValue(init[i].0)
        {
          assert init[j] == entries[j];
        }
      }
      ScanStoresEntry(init, i);
      assert port in before && before[port] == entries[i].1.s;
      assert !EntryWellTyped(e) || IntValue(e.0) != port;
    }
  }

  /** No later accepted entry names the same port as entry `i`. */
  predicate LastForPort(entries: seq<(Value, Value)>, i: int)
    requires 0 <= i < |entries| && EntryWellTyped(entries[i])
  {
    forall j :: i < j < |entries| && EntryWellTyped(entries[j]) ==> IntValue(entries[j].0) != IntValue(entries[i].0)
  }

  function LoadConfig(doc: Value): LoadResult {
    var config := Document(doc);
    if !config.Map? then AttributeError([])
    else
      var proxy := Section(config.entries, "proxy");
      var tunnels := Section(config.entries, "tunnels");
      var logged :=
        (if proxy.Map? then [] else [ProxyNotDict(TypeName(proxy))])
        + (if tunnels.Map? then [] else [TunnelsNotDict(TypeName(tunnels))]);
      if !proxy.Map? then TypeError(logged)
      else
        var options := OptionProblems(proxy.entries);
        if !tunnels.Map? then AttributeError(logged + options)
        else
          var scan := ScanTunnels(Items(tunnels.entries));
          if |options + scan.problems| > 0 then TypeError(options + scan.problems)
          else Loaded(ProxyRecord(proxy.entries), scan.routes)
  }

  /** Which of the three outcomes `load_config` reaches.  A `tunnels`
      section that is not a dict is logged but does not make the
      configuration invalid: with a dict `proxy` section it leads to the
      `.items()` call and an `AttributeError`, whatever the options hold.
      Otherwise `TypeError` is raised exactly when the proxy section is not
      a dict, an option has the wrong type, or an item of the tunnels dict
      has a key that is not an int or a value that is not a string; a pair
      whose key a later pair repeats is not an item and is never looked
      at. */
  lemma LoadOutcomes(doc: Value)
    ensures var config := Document(doc);
            LoadConfig(doc).AttributeError? <==>
              || !config.Map?
              || (Section(config.entries, "proxy").Map? && !Section(config.entries, "tunnels").Map?)
    ensures var config := Document(doc);
            LoadConfig(doc).TypeError? <==>
              && config.Map?
              && var proxy := Section(config.entries, "proxy");
                 var tunnels := Section(config.entries, "tunnels");
                 || !proxy.Map?
                 || (&& tunnels.Map?
                     && (|| !OptionsWellTyped(proxy.entries)
                         || exists i :: 0 <= i < |Items(tunnels.entries)| && !EntryWellTyped(Items(tunnels.entries)[i])))
  {
  }

  /** When validation fails with a `TypeError` after the proxy section was
      found to be a dict, every bad option and every bad item of the
      tunnels dict has been reported, not only the first. */
  lemma LoadReportsAllProblems(doc: Value)
    requires LoadConfig(doc).TypeError?
    requires Document(doc).Map? && Section(Document(doc).entries, "proxy").Map?
    ensures var config := Document(doc).entries;
            var proxy := Section(config, "proxy").entries;
            var items := Items(Section(config, "tunnels").entries);
            var logged := LoadConfig(doc).logged;
            && (!OptionWellTyped(proxy, "host") ==> OptionType("host", "str", TypeName(Get(proxy, "host").value)) in logged)
            && (!OptionWellTyped(proxy, "port") ==> OptionType("port", "int", TypeName(Get(proxy, "port").value)) in logged)
            && (!OptionWellTyped(proxy, "user") ==> OptionType("user", "str", TypeName(Get(proxy, "user").value)) in logged)
            && (!OptionWellTyped(proxy, "password") ==> OptionType("password", "str", TypeName(Get(proxy, "password").value)) in logged)
            && forall i :: 0 <= i < |items| && !EntryWellTyped(items[i]) ==> EntryProblem(items[i]) in logged
  {
    var config := Document(doc).entries;
    var proxy := Section(config, "proxy").entries;
    var items := Items(Section(config, "tunnels").entries);
    var options := OptionProblems(proxy);
    var scan := ScanTunnels(items);
    ScanReportsEveryProblem(items);
    assert LoadConfig(doc).logged == options + scan.problems;
    assert forall x :: x in scan.problems ==> x in options + scan.problems;
  }

  /** A proxy option absent from the section takes its default; a present
      one is stored as given (a `bool` port as 0 or 1). */
  lemma ProxyDefaults(doc: Value)
    requires LoadConfig(doc).Loaded?
    ensures Document(doc).Map? && Section(Document(doc).entries, "proxy").Map?
    ensures var proxy := Section(Document(doc).entries, "proxy").entries;
            var r := LoadConfig(doc).proxy;
            && (Get(proxy, "host").None? ==> r.host == DefaultHost)
            && (Get(proxy, "host").Some? ==> Get(proxy, "host") == Some(Str(r.host)))
            && (Get(proxy, "port").None? ==> r.port == DefaultPort)
            && (Get(proxy, "port").Some? ==> IsInt(Get(proxy, "port").value) && IntValue(Get(proxy, "port").value) == r.port)
            && (Get(proxy, "user").None? ==> r.user == "")
            && (Get(proxy, "user").Some? ==> Get(proxy, "user") == Some(Str(r.user)))
            && (Get(proxy, "password").None? ==> r.password == "")
            && (Get(proxy, "password").Some? ==> Get(proxy, "password") == Some(Str(r.password)))
  {
  }

  /** A loaded configuration holds one route per port named by a key of the
      tunnels mapping, and each route is the value of the last pair whose
      key equals that port: what `self.tunnels[local_port] = remote` leaves
      after iterating over the dict PyYAML built. */
  lemma LoadedRoutes(doc: Value)
    requires LoadConfig(doc).Loaded?
    ensures Document(doc).Map? && Section(Document(doc).entries, "tunnels").Map?
    ensures var tunnels := Section(Document(doc).entries, "tunnels").entries;
            var routes := LoadConfig(doc).tunnels;
            && (forall j :: 0 <= j < |tunnels| ==>
                  && IsInt(tunnels[j].0)
                  && IntValue(tunnels[j].0) in routes
                  && Lookup(tunnels, tunnels[j].0) == Some(Str(routes[IntValue(tunnels[j].0)])))
            && (forall port :: port in routes ==>
                  exists j :: 0 <= j < |tunnels| && IsInt(tunnels[j].0) && IntValue(tunnels[j].0) == port)
  {
    var tunnels := Section(Document(doc).entries, "tunnels").entries;
    var routes := LoadConfig(doc).tunnels;
    assert routes == ScanTunnels(Items(tunnels)).routes;
    forall j | 0 <= j < |tunnels|
      ensures && IsInt(tunnels[j].0)
              && IntValue(tunnels[j].0) in routes
              && Lookup(tunnels, tunnels[j].0) == Some(Str(routes[IntValue(tunnels[j].0)]))
    {
      RouteOfPair(tunnels, j);
    }
    forall port | port in routes
      ensures exists j :: 0 <= j < |tunnels| && IsInt(tunnels[j].0) && IntValue(tunnels[j].0) == port
    {
      var j := PairOfRoute(tunnels, port);
    }
  }

  /** When every item is well typed, the key of each pair is a port whose
      route is the value of the last pair with an equal key. */
  lemma RouteOfPair(tunnels: seq<(Value, Value)>, j: int)
    requires 0 <= j < |tunnels|
    requires forall i :: 0 <= i < |Items(tunnels)| ==> EntryWellTyped(Items(tunnels)[i])
    ensures var routes := ScanTunnels(Items(tunnels)).routes;
            && IsInt(tunnels[j].0)
            && IntValue(tunnels[j].0) in routes
            && Lookup(tunnels, tunnels[j].0) == Some(Str(routes[IntValue(tunnels[j].0)]))
  {
    var items := Items(tunnels);
    ItemsDistinct(tunnels);
    ItemsCover(tunnels);
    ItemsValues(tunnels);
    var m := KeyIndex(items, tunnels[j].0).value;
    assert EntryWellTyped(items[m]) && SameKey(items[m].0, tunnels[j].0);
    assert LastForPort(items, m) by {
      forall j' | m < j' < |items| && EntryWellTyped(items[j'])
        ensures IntValue(items[j'].0) != IntValue(items[m].0)
      {
        assert !SameKey(items[m].0, items[j'].0);
      }
    }
    ScanStoresEntry(items, m);
    LookupSameKey(tunnels, items[m].0, tunnels[j].0);
  }

  /** Every stored port is the key of some pair. */
  lemma PairOfRoute(tunnels: seq<(Value, Value)>, port: int) returns (j: nat)
    requires port in ScanTunnels(Items(tunnels)).routes
    ensures j < |tunnels| && IsInt(tunnels[j].0) && IntValue(tunnels[j].0) == port
  {
    var items := Items(tunnels);
    var i := StoredBy(items, port);
    ItemsFromPairs(tunnels);
    j :| 0 <= j < |tunnels| && tunnels[j].0 == items[i].0;
  }

  /** A stored port comes from an accepted item. */
  lemma StoredBy(items: seq<(Value, Value)>, port: int) returns (i: nat)
    requires port in ScanTunnels(items).routes
    ensures i < |items| && EntryWellTyped(items[i]) && IntValue(items[i].0) == port
  {
    i :| 0 <= i < |items| && EntryWellTyped(items[i]) && IntValue(items[i].0) == port;
  }

  /** `isinstance(True, int)` holds in Python, so booleans pass both int
      checks: as the proxy port and as a tunnel's local port. */
  lemma BoolPassesIntChecks()
    ensures LoadConfig(Map([
              (Str("proxy"), Map([(Str("port"), Bool(true))])),
              (Str("tunnels"), Map([(Bool(false), Str("example.org:22"))]))]))
            == Loaded(ProxyConfig(DefaultHost, 1, "", ""), map[0 := "example.org:22"])
  {
    var proxy := [(Str("port"), Bool(true))];
    var tunnels := [(Bool(false), Str("example.org:22"))];
    BoolPortSection();
    assert Items(tunnels) == tunnels;
    assert ScanTunnels(tunnels) == TunnelScan(map[0 := "example.org:22"], []);
    LoadSections(proxy, tunnels);
  }

  /** A proxy section whose only option is a `true` port passes, with
      port 1. */
  lemma BoolPortSection()
    ensures var proxy := [(Str("port"), Bool(true))];
            OptionProblems(proxy) == [] && ProxyRecord(proxy) == ProxyConfig(DefaultHost, 1, "", "")
  {
    var proxy := [(Str("port"), Bool(true))];
    assert Get(proxy, "host") == None && Get(proxy, "user") == None && Get(proxy, "password") == None;
    assert Get(proxy, "port") == Some(Bool(true));
  }

  /** A document holding both sections as mappings, with no ill-typed
      option and no ill-typed tunnel item, loads as their record and
      routes. */
  lemma LoadSections(proxy: seq<(Value, Value)>, tunnels: seq<(Value, Value)>)
    requires |OptionProblems(proxy)| == 0 && |ScanTunnels(Items(tunnels)).problems| == 0
    ensures LoadConfig(Map([(Str("proxy"), Map(proxy)), (Str("tunnels"), Map(tunnels))]))
            == Loaded(ProxyRecord(proxy), ScanTunnels(Items(tunnels)).routes)
  {
    TwoSections(proxy, tunnels);
  }

  /** A key that repeats is one dict item holding the last value, so an
      ill-typed value it replaced is never checked. */
  lemma DuplicateKeyLastWins()
    ensures LoadConfig(Map([
              (Str("proxy"), Map([])),
              (Str("tunnels"), Map([(Int(2222), Int(1)), (Int(2222), Str("h:22"))]))]))
            == Loaded(ProxyConfig(DefaultHost, DefaultPort, "", ""), map[2222 := "h:22"])
  {
    var tunnels := [(Int(2222), Int(1)), (Int(2222), Str("h:22"))];
    var first := [(Int(2222), Int(1))];
    var items := [(Int(2222), Str("h:22"))];
    assert tunnels[..1] == first;
    assert Items(first) == first;
    assert KeyIndex(first, Int(2222)) == Some(0);
    assert Assign(first, Int(2222), Str("h:22")) == items;
    assert Items(tunnels) == items;
    assert ScanTunnels(items) == TunnelScan(map[2222 := "h:22"], []);
    assert OptionProblems([]) == [];
    LoadSections([], tunnels);
  }

  /** `True == 1`, so a bool key repeats an int key: the item keeps the
      int spelling and takes the later value. */
  lemma BoolKeyRepeatsInt()
    ensures LoadConfig(Map([
              (Str("proxy"), Map([])),
              (Str("tunnels"), Map([(Int(1), Int(5)), (Bool(true), Str("h:22"))]))]))
            == Loaded(ProxyConfig(DefaultHost, DefaultPort, "", ""), map[1 := "h:22"])
  {
    var tunnels := [(Int(1), Int(5)), (Bool(true), Str("h:22"))];
    var first := [(Int(1), Int(5))];
    var items := [(Int(1), Str("h:22"))];
    assert tunnels[..1] == first;
    assert Items(first) == first;
    assert KeyIndex(first, Bool(true)) == Some(0);
    assert Assign(first, Bool(true), Str("h:22")) == items;
    assert Items(tunnels) == items;
    assert ScanTunnels(items) == TunnelScan(map[1 := "h:22"], []);
    assert OptionProblems([]) == [];
    LoadSections([], tunnels);
  }

  /** A document holding both sections as mappings: each is found under
      its name. */
  lemma TwoSections(proxy: seq<(Value, Value)>, tunnels: seq<(Value, Value)>)
    ensures var doc := Map([(Str("proxy"), Map(proxy)), (Str("tunnels"), Map(tunnels))]);
            && Document(doc) == doc
            && Section(doc.entries, "proxy") == Map(proxy)
            && Section(doc.entries, "tunnels") == Map(tunnels)
  {
    var entries := [(Str("proxy"), Map(proxy)), (Str("tunnels"), Map(tunnels))];
    assert entries[..1] == [(Str("proxy"), Map(proxy))];
    assert Lookup(entries[..1], Str("proxy")) == Some(Map(proxy));
  }

  /** An empty document configures the default proxy and no tunnel. */
  lemma EmptyDocument()
    ensures LoadConfig(Null) == Loaded(ProxyConfig(DefaultHost, DefaultPort, "", ""), map[])
  {
  }

  /** A truthy document that is not a mapping makes `.get` fail. */
  lemma NonMappingDocument()
    ensures LoadConfig(List([Int(1)])) == AttributeError([])
  {
  }

  /** A `tunnels` section that is not a dict is reported, but validation
      goes on to call `.items()` on it. */
  lemma TunnelsNotDictCrashes()
    ensures LoadConfig(Map([(Str("tunnels"), List([]))])) == AttributeError([TunnelsNotDict("list")])
  {
  }

  /** A `proxy` section that is not a dict stops validation with a
      `TypeError` once both sections have been looked at. */
  lemma ProxyNotDictFails()
    ensures LoadConfig(Map([(Str("proxy"), Null), (Str("tunnels"), Int(1))]))
            == TypeError([ProxyNotDict("NoneType"), TunnelsNotDict("int")])
  {
  }
}

=== FILE: handshake.dfy ===
/** The CONNECT handshake inside `connection_callback`: the request written
    to the proxy (section 9.3.6 of RFC 9110, with the Basic credentials of
    section 2 of RFC 7617) and the decision taken on the proxy's reply. */
module Handshake {
  import opened Wrappers
  import opened Ascii
  import PyStr
  import Base64
  import Config

  // ---------------------------------------------------------------------
  // The request

  const CRLF: string := "\r\n"

  /** The credential line, present only when a user name is configured. */
  function AuthHeader(token: string): string {
    "Proxy-Authorization: Basic " + token + CRLF
  }

  /** The text of the request with the Base64 token `token` in its
      credential line, or without one when `token` is `None`. */
  function RequestText(remote: string, token: Option<string>): (text: string)
    ensures |text| >= 4 && text[|text| - 4..] == CRLF + CRLF
  {
    var head := "CONNECT " + remote + " HTTP/1.1" + CRLF + "Proxy-Connection: keep-alive" + CRLF;
    var auth := if token.Some? then AuthHeader(token.value) else "";
    var text := head + auth + CRLF;
    assert text[|text| - 4..] == (head + auth)[|head + auth| - 2..] + CRLF;
    text
  }

  /** `user:password`, the user-pass of section 2 of RFC 7617. */
  function UserPass(proxy: Config.ProxyConfig): string {
    proxy.user + ":" + proxy.password
  }

  /** The bytes written to the proxy, or `None` where Python raises
      `UnicodeEncodeError`: first when the credentials are encoded (only
      if a user is set), then when the whole request is. */
  function ConnectRequest(proxy: Config.ProxyConfig, remote: string): (r: Option<seq<byte>>)
  {
    if proxy.user != "" then
      match Ascii.Encode(UserPass(proxy))
      case None => None
      case Some(cred) => Ascii.Encode(RequestText(remote, Some(Base64.Encode(cred))))
    else Ascii.Encode(RequestText(remote, None))
  }

  lemma Base64IsAscii(b: seq<byte>)
    ensures IsAscii(Base64.Encode(b))
  {
    var s := Base64.Encode(b);
    forall i | 0 <= i < |s| ensures IsAsciiChar(s[i]) {
      assert Base64.IsEncodingChar(s[i]);
      if s[i] != '=' {
        Base64.CharOfValueOf(s[i]);
      }
    }
  }

  lemma RequestTextAscii(remote: string, token: Option<string>)
    requires IsAscii(remote)
    requires token.Some? ==> IsAscii(token.value)
    ensures IsAscii(RequestText(remote, token))
  {
    var head := "CONNECT " + remote + " HTTP/1.1" + CRLF + "Proxy-Connection: keep-alive" + CRLF;
    var auth := if token.Some? then AuthHeader(token.value) else "";
    assert forall i :: 0 <= i < |head| ==> IsAsciiChar(head[i]) by {
      forall i | 0 <= i < |head| ensures IsAsciiChar(head[i]) {
        if 8 <= i < 8 + |remote| { assert head[i] == remote[i - 8]; }
      }
    }
    if token.Some? {
      var t := token.value;
      forall i | 0 <= i < |auth| ensures IsAsciiChar(auth[i]) {
        if 27 <= i < 27 + |t| { assert auth[i] == t[i - 27]; }
      }
    }
    var text := head + auth + CRLF;
    forall i | 0 <= i < |text| ensures IsAsciiChar(text[i]) {
      if i < |head| { assert text[i] == head[i]; }
      else if i < |head| + |auth| { assert text[i] == auth[i - |head|]; }
    }
  }

  /** The request can be sent exactly when the remote target is ASCII and,
      if a user is configured, so are the credentials; a non-ASCII password
      without a user is never encoded.  When sent, the bytes are the ASCII
      encoding of the request line, the keep-alive header, the credential
      line iff the user is non-empty, and the empty line. */
  lemma ConnectRequestShape(proxy: Config.ProxyConfig, remote: string)
    ensures ConnectRequest(proxy, remote).Some? <==>
              IsAscii(remote) && (proxy.user != "" ==> IsAscii(UserPass(proxy)))
    ensures ConnectRequest(proxy, remote).Some? ==>
              var token := if proxy.user != "" then Some(Base64.Encode(Ascii.Encode(UserPass(proxy)).value)) else None;
              Ascii.Decode(ConnectRequest(proxy, remote).value) == Some(RequestText(remote, token))
  {
    var token := if proxy.user != "" && Ascii.Encode(UserPass(proxy)).Some? then Some(Base64.Encode(Ascii.Encode(UserPass(proxy)).value)) else None;
    if token.Some? {
      Base64IsAscii(Ascii.Encode(UserPass(proxy)).value);
    }
    if IsAscii(remote) {
      RequestTextAscii(remote, token);
      Ascii.DecodeEncode(RequestText(remote, token));
    } else {
      assert RequestText(remote, token)[8..8 + |remote|] == remote;
      assert !IsAscii(RequestText(remote, token));
    }
  }

  /** The credential token of a sent request decodes back to the ASCII
      bytes of `user:password`, and has 4 characters per started group of
      3 bytes. */
  lemma CredentialToken(proxy: Config.ProxyConfig)
    requires IsAscii(UserPass(proxy))
    ensures var cred := Ascii.Encode(UserPass(proxy)).value;
            var token := Base64.Encode(cred);
            && Base64.Decode(token) == Some(cred)
            && |token| == 4 * ((|UserPass(proxy)| + 2) / 3)
  {
    Base64.DecodeEncode(Ascii.Encode(UserPass(proxy)).value);
  }

  // ---------------------------------------------------------------------
  // The reply

  const HeaderEnd: seq<byte> := [13, 10, 13, 10]
  const LineEnd: seq<byte> := [13, 10]

  predicate OccursAt(data: seq<byte>, pat: seq<byte>, j: int) {
    0 <= j && j + |pat| <= |data| && data[j..j + |pat|] == pat
  }

  /** The first position at or after `from` where `pat` occurs. */
  function FindFrom(data: seq<byte>, pat: seq<byte>, from: nat): (r: Option<nat>)
    ensures r.Some? ==> from <= r.value && OccursAt(data, pat, r.value)
    ensures r.Some? ==> forall j :: from <= j < r.value ==> !OccursAt(data, pat, j)
    ensures r.None? ==> forall j :: from <= j ==> !OccursAt(data, pat, j)
    decreases |data| - from
  {
    if from + |pat| > |data| then None
    else if data[from..from + |pat|] == pat then Some(from)
    else FindFrom(data, pat, from + 1)
  }

  function Find(data: seq<byte>, pat: seq<byte>): Option<nat> {
    FindFrom(data, pat, 0)
  }

  /** `readuntil(b'\r\n\r\n')` on a stream whose buffered bytes are `data`:
      the header block up to and including the first `\r\n\r\n`, and the
      bytes after it, which stay in the reader; `None` when the marker has
      not arrived. */
  function ReadUntil(data: seq<byte>): Option<(seq<byte>, seq<byte>)> {
    match Find(data, HeaderEnd)
    case None => None
    case Some(i) => Some((data[..i + 4], data[i + 4..]))
  }

  /** The split is lossless, the block ends in the marker, and it is the
      shortest such prefix: the marker occurs nowhere earlier. */
  lemma ReadUntilSplits(data: seq<byte>)
    ensures ReadUntil(data).None? <==> forall j :: !OccursAt(data, HeaderEnd, j)
    ensures ReadUntil(data).Some? ==>
              var (block, rest) := ReadUntil(data).value;
              && block + rest == data
              && |block| >= 4 && block[|block| - 4..] == HeaderEnd
              && forall j :: 0 <= j < |block| - 4 ==> !OccursAt(data, HeaderEnd, j)
  {
    match Find(data, HeaderEnd)
    case None =>
      forall j ensures !OccursAt(data, HeaderEnd, j) {
        if j < 0 { }
      }
    case Some(i) =>
      assert data[..i + 4] + data[i + 4..] == data;
  }

  /** `block.split(b'\r\n')[0]`: the bytes before the first line break,
      or the whole block when it holds none. */
  function FirstLine(block: seq<byte>): (line: seq<byte>)
    ensures |line| <= |block| && line == block[..|line|]
    ensures forall j :: !OccursAt(line, LineEnd, j)
    ensures |line| == |block| || OccursAt(block, LineEnd, |line|)
  {
    match Find(block, LineEnd)
    case None => block
    case Some(i) => PrefixFree(block, LineEnd, i); block[..i]
  }

  /** A pattern that occurs nowhere before `n` occurs nowhere in the
      first `n` bytes. */
  lemma PrefixFree(data: seq<byte>, pat: seq<byte>, n: nat)
    requires |pat| > 0 && n <= |data|
    requires forall j :: 0 <= j < n ==> !OccursAt(data, pat, j)
    ensures forall j :: !OccursAt(data[..n], pat, j)
  {
    forall j
      ensures !OccursAt(data[..n], pat, j)
    {
      if 0 <= j && j + |pat| <= n {
        assert data[..n][j..j + |pat|] == data[j..j + |pat|];
        assert !OccursAt(data, pat, j);
      }
    }
  }

  /** What the callback does with the status line. */
  datatype Verdict =
    | Accept                     // second field is "200": start relaying
    | Refuse(statusLine: string) // any other second field: close the client
    | NotAscii                   // `.decode('ascii')` raises UnicodeDecodeError
    | TooFewFields               // `.split()[1]` raises IndexError

  function Judge(block: seq<byte>): (v: Verdict)
    ensures v.NotAscii? <==> Ascii.Decode(FirstLine(block)).None?
    ensures v.Accept? ==> exists line :: Ascii.Decode(FirstLine(block)) == Some(line)
                                         && |PyStr.Split(line)| >= 2 && PyStr.Split(line)[1] == "200"
  {
    match Ascii.Decode(FirstLine(block))
    case None => NotAscii
    case Some(line) =>
      var fields := PyStr.Split(line);
      if |fields| < 2 then TooFewFields
      else if fields[1] == "200" then Accept
      else Refuse(line)
  }

  /** Whatever the spacing: a first line whose second field is `200` is
      accepted, and one whose second field is anything else is refused. */
  lemma JudgeTwoFields(block: seq<byte>, w0: string, f0: string, w1: string, f1: string, rest: string)
    requires PyStr.TwoFields(w0, f0, w1, f1, rest)
    requires Ascii.Decode(FirstLine(block)) == Some(w0 + f0 + w1 + f1 + rest)
    ensures Judge(block) == if f1 == "200" then Accept else Refuse(w0 + f0 + w1 + f1 + rest)
  {
    PyStr.SplitTwoFields(w0, f0, w1, f1, rest);
  }

  /** A first line with at most one field makes `split()[1]` raise. */
  lemma JudgeFewFields(block: seq<byte>, w0: string, f: string, w1: string)
    requires PyStr.FewFields(w0, f, w1)
    requires Ascii.Decode(FirstLine(block)) == Some(w0 + f + w1)
    ensures Judge(block) == TooFewFields
  {
    PyStr.SplitFewFields(w0, f, w1);
  }

  /** Conversely, an accepted or refused reply has a first line with two
      fields or more, and it is accepted exactly when the second is
      `200`. */
  lemma JudgedLine(block: seq<byte>) returns (w0: string, f0: string, w1: string, f1: string, rest: string)
    requires Judge(block).Accept? || Judge(block).Refuse?
    ensures PyStr.TwoFields(w0, f0, w1, f1, rest)
    ensures Ascii.Decode(FirstLine(block)) == Some(w0 + f0 + w1 + f1 + rest)
    ensures Judge(block).Accept? <==> f1 == "200"
  {
    var line := Ascii.Decode(FirstLine(block)).value;
    w0, f0, w1, f1, rest := PyStr.TwoFieldsOfSplit(line);
  }

  /** Conversely, an `IndexError` comes from a first line with at most one
      field. */
  lemma TooFewFieldsLine(block: seq<byte>) returns (w0: string, f: string, w1: string)
    requires Judge(block) == TooFewFields
    ensures PyStr.FewFields(w0, f, w1)
    ensures Ascii.Decode(FirstLine(block)) == Some(w0 + f + w1)
  {
    var line := Ascii.Decode(FirstLine(block)).value;
    w0, f, w1 := PyStr.FewFieldsOfSplit(line);
  }

  /** For a status line of the form `HTTP-version SP status-code SP
      reason-phrase` (section 4 of RFC 9112) the tunnel is accepted exactly
      when the status code is 200; the reason phrase plays no part. */
  lemma StatusLineVerdict(version: string, code: string, reason: string)
    requires PyStr.IsField(version) && PyStr.IsField(code)
    ensures |PyStr.Split(version + " " + code + " " + reason)| >= 2
    ensures PyStr.Split(version + " " + code + " " + reason)[..2] == [version, code]
    ensures (PyStr.Split(version + " " + code + " " + reason)[1] == "200") <==> code == "200"
  {
    var tail := " " + reason;
    assert version + " " + code + " " + reason == version + (" " + (code + tail));
    PyStr.SplitField(version, " " + (code + tail));
    PyStr.SplitSkipsSpace(" ", code + tail);
    PyStr.SplitField(code, tail);
  }

  /** A search for a pattern starting with CR finds the first CR that
      starts it, when no CR comes before. */
  lemma FindAtFirstCR(data: seq<byte>, pat: seq<byte>, n: nat)
    requires |pat| > 0 && pat[0] == 13 && OccursAt(data, pat, n)
    requires forall j :: 0 <= j < n ==> data[j] != 13
    ensures Find(data, pat) == Some(n)
  {
  }

  /** A reply that is one status line `version SP code SP reason` followed
      by the empty line, possibly with bytes after it: the block ends right
      after the empty line, the later bytes are left over, and the verdict
      depends on the status code alone. */
  lemma StatusLineReply(version: string, code: string, reason: string, leftover: seq<byte>)
    requires PyStr.IsField(version) && PyStr.IsField(code)
    requires IsAscii(version) && IsAscii(code) && IsAscii(reason)
    requires forall i :: 0 <= i < |reason| ==> reason[i] != '\r'
    ensures IsAscii(version + " " + code + " " + reason)
    ensures var line := version + " " + code + " " + reason;
            var block := Ascii.Encode(line).value + HeaderEnd;
            && ReadUntil(block + leftover) == Some((block, leftover))
            && Judge(block) == (if code == "200" then Accept else Refuse(line))
  {
    var line := version + " " + code + " " + reason;
    AsciiAppend(version, " ");
    AsciiAppend(version + " ", code);
    AsciiAppend(version + " " + code, " ");
    AsciiAppend(version + " " + code + " ", reason);
    var bytes := Ascii.Encode(line).value;
    var block := bytes + HeaderEnd;
    var data := block + leftover;
    assert forall i :: 0 <= i < |line| ==> line[i] != '\r' by {
      forall i | 0 <= i < |line| ensures line[i] != '\r' {
        if i < |version| {
          assert line[i] == version[i];
        } else if |version| < i < |version| + 1 + |code| {
          assert line[i] == code[i - |version| - 1];
        } else if i > |version| + 1 + |code| {
          assert line[i] == reason[i - |version| - |code| - 2];
        }
      }
    }
    assert OccursAt(data, HeaderEnd, |bytes|) by {
      assert data[|bytes|..|bytes| + 4] == HeaderEnd;
    }
    FindAtFirstCR(data, HeaderEnd, |bytes|);
    assert data[..|bytes| + 4] == block && data[|bytes| + 4..] == leftover;
    assert OccursAt(block, LineEnd, |bytes|) by {
      assert block[|bytes|..|bytes| + 2] == LineEnd;
    }
    FindAtFirstCR(block, LineEnd, |bytes|);
    assert FirstLine(block) == bytes;
    Ascii.DecodeEncode(line);
    StatusLineVerdict(version, code, reason);
  }
}

=== FILE: pystr.dfy ===
/** Python's argument-less `str.split()`: runs of whitespace separate the
    fields, and leading or trailing whitespace yields no empty field. */
module PyStr {

  /** The characters for which Python's `str.isspace()` holds. */
  predicate IsSpace(c: char) {
    var n := c as int;
    || (9 <= n <= 13) || (28 <= n <= 32)
    || n == 0x85 || n == 0xA0 || n == 0x1680 || (0x2000 <= n <= 0x200A)
    || n == 0x2028 || n == 0x2029 || n == 0x202F || n == 0x205F || n == 0x3000
  }

  predicate AllSpace(s: string) {
    forall i :: 0 <= i < |s| ==> IsSpace(s[i])
  }

  /** A field `split()` can return: non-empty and free of whitespace. */
  predicate IsField(t: string) {
    |t| > 0 && forall i :: 0 <= i < |t| ==> !IsSpace(t[i])
  }

  /** Length of the leading run of non-whitespace characters. */
  function FieldLength(s: string): (n: nat)
    ensures n <= |s|
    ensures forall i :: 0 <= i < n ==> !IsSpace(s[i])
    ensures n < |s| ==> IsSpace(s[n])
  {
    if |s| == 0 || IsSpace(s[0]) then 0 else 1 + FieldLength(s[1..])
  }

  function Split(s: string): (fields: seq<string>)
    ensures forall k :: 0 <= k < |fields| ==> IsField(fields[k])
    decreases |s|
  {
    if |s| == 0 then []
    else if IsSpace(s[0]) then Split(s[1..])
    else
      var n := FieldLength(s);
      [s[..n]] + Split(s[n..])
  }

  /** Whitespace in front of the text contributes no field. */
  lemma {:induction false} SplitSkipsSpace(w: string, s: string)
    requires AllSpace(w)
    ensures Split(w + s) == Split(s)
    decreases |w|
  {
    if |w| > 0 {
      assert (w + s)[0] == w[0];
      assert (w + s)[1..] == w[1..] + s;
      SplitSkipsSpace(w[1..], s);
    } else {
      assert w + s == s;
    }
  }

  lemma {:induction false} FieldLengthOfField(t: string, s: string)
    requires forall i :: 0 <= i < |t| ==> !IsSpace(t[i])
    requires |s| == 0 || IsSpace(s[0])
    ensures FieldLength(t + s) == |t|
    decreases |t|
  {
    if |t| == 0 {
      assert t + s == s;
    } else {
      assert (t + s)[0] == t[0];
      assert (t + s)[1..] == t[1..] + s;
      FieldLengthOfField(t[1..], s);
    }
  }

  /** A field followed by a whitespace boundary (or the end) is split off
      intact. */
  lemma SplitField(t: string, s: string)
    requires IsField(t)
    requires |s| == 0 || IsSpace(s[0])
    ensures Split(t + s) == [t] + Split(s)
  {
    FieldLengthOfField(t, s);
    assert (t + s)[0] == t[0];
    assert (t + s)[..|t|] == t;
    assert (t + s)[|t|..] == s;
  }

  /** The whitespace-only strings are exactly those that split into no
      field. */
  lemma {:induction false} SplitEmpty(s: string)
    ensures Split(s) == [] <==> AllSpace(s)
    decreases |s|
  {
    if |s| > 0 {
      SplitEmpty(s[1..]);
      if IsSpace(s[0]) {
        assert AllSpace(s) <==> AllSpace(s[1..]) by {
          if AllSpace(s[1..]) {
            forall i | 0 <= i < |s| ensures IsSpace(s[i]) {
              if i > 0 { assert s[i] == s[1..][i - 1]; }
            }
          }
        }
      }
    }
  }

  /** The first field of a string, with the whitespace before it and the
      text after it: that text starts at a whitespace boundary and splits
      into the remaining fields. */
  lemma {:induction false} SplitFirst(s: string) returns (w: string, rest: string)
    requires |Split(s)| > 0
    ensures AllSpace(w) && s == w + Split(s)[0] + rest
    ensures |rest| == 0 || IsSpace(rest[0])
    ensures Split(rest) == Split(s)[1..]
    decreases |s|
  {
    if IsSpace(s[0]) {
      assert Split(s) == Split(s[1..]);
      var w', rest' := SplitFirst(s[1..]);
      w, rest := [s[0]] + w', rest';
      assert s == [s[0]] + s[1..];
      assert AllSpace(w) by {
        forall i | 0 <= i < |w| ensures IsSpace(w[i]) {
          if i > 0 { assert w[i] == w'[i - 1]; }
        }
      }
    } else {
      var n := FieldLength(s);
      assert Split(s) == [s[..n]] + Split(s[n..]);
      w, rest := "", s[n..];
      assert s == w + s[..n] + rest;
    }
  }

  /** The shape of a string whose first two fields are `f0` and `f1`:
      optional whitespace, `f0`, whitespace, `f1`, and a tail that starts
      at a whitespace boundary. */
  predicate TwoFields(w0: string, f0: string, w1: string, f1: string, rest: string) {
    && AllSpace(w0) && IsField(f0)
    && |w1| > 0 && AllSpace(w1) && IsField(f1)
    && (|rest| == 0 || IsSpace(rest[0]))
  }

  lemma SplitTwoFields(w0: string, f0: string, w1: string, f1: string, rest: string)
    requires TwoFields(w0, f0, w1, f1, rest)
    ensures var fields := Split(w0 + f0 + w1 + f1 + rest);
            |fields| >= 2 && fields[0] == f0 && fields[1] == f1
  {
    assert w0 + f0 + w1 + f1 + rest == w0 + (f0 + (w1 + (f1 + rest)));
    SplitSkipsSpace(w0, f0 + (w1 + (f1 + rest)));
    SplitField(f0, w1 + (f1 + rest));
    SplitSkipsSpace(w1, f1 + rest);
    SplitField(f1, rest);
  }

  /** Conversely, a string with at least two fields has that shape. */
  lemma TwoFieldsOfSplit(s: string) returns (w0: string, f0: string, w1: string, f1: string, rest: string)
    requires |Split(s)| >= 2
    ensures TwoFields(w0, f0, w1, f1, rest) && s == w0 + f0 + w1 + f1 + rest
    ensures f0 == Split(s)[0] && f1 == Split(s)[1]
  {
    var r0;
    w0, r0 := SplitFirst(s);
    f0 := Split(s)[0];
    assert |Split(r0)| > 0;
    w1, rest := SplitFirst(r0);
    f1 := Split(r0)[0];
    assert r0[0] == (w1 + f1 + rest)[0];
    assert s == w0 + f0 + w1 + f1 + rest;
  }

  /** The shape of a string with at most one field: whitespace around an
      optional field. */
  predicate FewFields(w0: string, f: string, w1: string) {
    AllSpace(w0) && (f == "" || IsField(f)) && AllSpace(w1)
  }

  lemma SplitFewFields(w0: string, f: string, w1: string)
    requires FewFields(w0, f, w1)
    ensures |Split(w0 + f + w1)| < 2
  {
    assert w0 + f + w1 == w0 + (f + w1);
    SplitSkipsSpace(w0, f + w1);
    SplitEmpty(w1);
    if f != "" {
      SplitField(f, w1);
    } else {
      assert f + w1 == w1;
    }
  }

  /** Conversely, a string with fewer than two fields has that shape. */
  lemma FewFieldsOfSplit(s: string) returns (w0: string, f: string, w1: string)
    requires |Split(s)| < 2
    ensures FewFields(w0, f, w1) && s == w0 + f + w1
  {
    SplitEmpty(s);
    if |Split(s)| == 0 {
      w0, f, w1 := s, "", "";
      assert s == s + "" + "";
    } else {
      w0, w1 := SplitFirst(s);
      f := Split(s)[0];
      SplitEmpty(w1);
    }
  }

  /** Joining fields with single spaces and splitting again gives the fields
      back. */
  function JoinSpace(fields: seq<string>): string {
    if |fields| == 0 then ""
    else if |fields| == 1 then fields[0]
    else fields[0] + " " + JoinSpace(fields[1..])
  }

  lemma {:induction false} SplitJoin(fields: seq<string>)
    requires forall k :: 0 <= k < |fields| ==> IsField(fields[k])
    ensures Split(JoinSpace(fields)) == fields
  {
    if |fields| == 1 {
      SplitField(fields[0], "");
      assert fields[0] + "" == fields[0];
    } else if |fields| > 1 {
      var rest := JoinSpace(fields[1..]);
      assert fields[0] + " " + rest == fields[0] + (" " + rest);
      SplitField(fields[0], " " + rest);
      SplitSkipsSpace(" ", rest);
      SplitJoin(fields[1..]);
      assert [fields[0]] + fields[1..] == fields;
    }
  }
}

=== FILE: relay.dfy ===
/** One direction of the relay (`data_transfer`): read up to 4096 bytes,
    stop at the first empty read, otherwise write the bytes on unchanged;
    close the writer once the loop has ended.  The reads the source stream
    yields are an input: a finite sequence of results, where running out of
    results means the loop is still waiting for the next one. */
module Relay {
  import opened Ascii

  const ReadSize := 4096

  /** One `await reader.read(4096)`: the bytes it returned (empty at end of
      stream) or the exception it raised. */
  datatype ReadResult = Data(bytes: seq<byte>) | ReadError

  /** One call on the destination writer. */
  datatype WriterOp = Write(bytes: seq<byte>) | Close

  /** Finished: the loop saw an empty read and closed the writer.
      Waiting: all given results were relayed and the loop awaits the next.
      Raised: a read raised; the task ends without closing the writer. */
  datatype Status = Finished | Waiting | Raised

  datatype Trace = Trace(ops: seq<WriterOp>, status: Status)

  /** A read that the loop passes on: non-empty data. */
  predicate IsPayload(r: ReadResult) {
    r.Data? && |r.bytes| > 0
  }

  function Transfer(results: seq<ReadResult>): Trace {
    if |results| == 0 then Trace([], Waiting)
    else match results[0]
      case ReadError => Trace([], Raised)
      case Data(b) =>
        if |b| == 0 then Trace([Close], Finished)
        else
          var rest := Transfer(results[1..]);
          Trace([Write(b)] + rest.ops, rest.status)
  }

  /** The number of reads before the first one that ends the loop. */
  function Stop(results: seq<ReadResult>): (n: nat)
    ensures n <= |results|
    ensures forall j :: 0 <= j < n ==> IsPayload(results[j])
    ensures n < |results| ==> !IsPayload(results[n])
  {
    if |results| == 0 || !IsPayload(results[0]) then 0 else 1 + Stop(results[1..])
  }

  /** The bytes carried by a sequence of reads. */
  function Concat(results: seq<ReadResult>): seq<byte> {
    if |results| == 0 then []
    else (if results[0].Data? then results[0].bytes else []) + Concat(results[1..])
  }

  /** The bytes a sequence of writer calls puts on the wire. */
  function Written(ops: seq<WriterOp>): seq<byte> {
    if |ops| == 0 then []
    else (if ops[0].Write? then ops[0].bytes else []) + Written(ops[1..])
  }

  function CloseCount(ops: seq<WriterOp>): nat {
    if |ops| == 0 then 0 else (if ops[0].Close? then 1 else 0) + CloseCount(ops[1..])
  }

  lemma {:induction false} WrittenAppend(a: seq<WriterOp>, b: seq<WriterOp>)
    ensures Written(a + b) == Written(a) + Written(b)
    ensures CloseCount(a + b) == CloseCount(a) + CloseCount(b)
  {
    if |a| == 0 {
      assert a + b == b;
    } else {
      assert (a + b)[1..] == a[1..] + b;
      WrittenAppend(a[1..], b);
    }
  }

  lemma {:induction false} ConcatAppend(a: seq<ReadResult>, b: seq<ReadResult>)
    ensures Concat(a + b) == Concat(a) + Concat(b)
  {
    if |a| == 0 {
      assert a + b == b;
    } else {
      assert (a + b)[1..] == a[1..] + b;
      ConcatAppend(a[1..], b);
    }
  }

  /** The written bytes are exactly the bytes read before the first empty
      read (or error), in order and unmodified; the writer is closed once,
      as the last call, exactly when the loop met an empty read. */
  lemma {:induction false} TransferCopies(results: seq<ReadResult>)
    ensures var t := Transfer(results);
            && Written(t.ops) == Concat(results[..Stop(results)])
            && (t.status == Finished <==> Stop(results) < |results| && results[Stop(results)] == Data([]))
            && (t.status == Raised <==> Stop(results) < |results| && results[Stop(results)] == ReadError)
            && (t.status == Waiting <==> Stop(results) == |results|)
            && CloseCount(t.ops) == (if t.status == Finished then 1 else 0)
            && (t.status == Finished ==> t.ops[|t.ops| - 1] == Close)
            && |t.ops| == Stop(results) + (if t.status == Finished then 1 else 0)
            && forall k :: 0 <= k < Stop(results) ==> t.ops[k] == Write(results[k].bytes)
  {
    if |results| > 0 && IsPayload(results[0]) {
      var rest := Transfer(results[1..]);
      TransferCopies(results[1..]);
      var n := Stop(results[1..]);
      assert results[..Stop(results)] == [results[0]] + results[1..][..n];
      assert Concat([results[0]] + results[1..][..n]) == results[0].bytes + Concat(results[1..][..n]) by {
        ConcatAppend([results[0]], results[1..][..n]);
      }
      WrittenAppend([Write(results[0].bytes)], rest.ops);
    }
  }

  /** Nothing after the read that ends the loop is looked at. */
  lemma {:induction false} TransferIgnoresLaterReads(results: seq<ReadResult>, more: seq<ReadResult>)
    requires Stop(results) < |results|
    ensures Transfer(results + more) == Transfer(results)
  {
    if IsPayload(results[0]) {
      assert (results + more)[1..] == results[1..] + more;
      TransferIgnoresLaterReads(results[1..], more);
    }
  }

  /** While the loop is waiting, further reads only extend what it writes. */
  lemma {:induction false} TransferExtends(results: seq<ReadResult>, more: seq<ReadResult>)
    requires Stop(results) == |results|
    ensures Transfer(results + more).ops == Transfer(results).ops + Transfer(more).ops
    ensures Transfer(results + more).status == Transfer(more).status
  {
    if |results| == 0 {
      assert results + more == more;
    } else {
      assert (results + more)[1..] == results[1..] + more;
      TransferExtends(results[1..], more);
    }
  }

  /** The loop of `data_transfer` itself.  It makes the writer calls
      `Transfer` describes, so what `TransferCopies` proves holds of it. */
  method Pump(results: seq<ReadResult>) returns (t: Trace)
    ensures t == Transfer(results)
    ensures Written(t.ops) == Concat(results[..Stop(results)])
    ensures t.status == Finished ==> CloseCount(t.ops) == 1 && t.ops[|t.ops| - 1] == Close
    ensures t.status != Finished ==> CloseCount(t.ops) == 0
    ensures t.status == Waiting <==> Stop(results) == |results|
    ensures t.status == Finished <==> Stop(results) < |results| && results[Stop(results)] == Data([])
  {
    var ops: seq<WriterOp> := [];
    var i := 0;
    while i < |results|
      invariant i <= |results|
      invariant Transfer(results) == Trace(ops + Transfer(results[i..]).ops, Transfer(results[i..]).status)
    {
      assert results[i..][1..] == results[i + 1..];
      match results[i]
      case ReadError =>
        TransferCopies(results);
        return Trace(ops, Raised);
      case Data(buf) =>
        if |buf| == 0 {
          TransferCopies(results);
          return Trace(ops + [Close], Finished);
        }
        assert ops + Transfer(results[i..]).ops == (ops + [Write(buf)]) + Transfer(results[i + 1..]).ops;
        ops := ops + [Write(buf)];
        i := i + 1;
    }
    assert results[i..] == [];
    assert ops + [] == ops;
    TransferCopies(results);
    return Trace(ops, Waiting);
  }

  /** `StreamReader.read(4096)` on a buffer holding `b`: the buffered bytes
      come first, in pieces of at most 4096 bytes. */
  function Chunks(b: seq<byte>): (results: seq<ReadResult>)
    ensures forall k :: 0 <= k < |results| ==> IsPayload(results[k]) && |results[k].bytes| <= ReadSize
    decreases |b|
  {
    if |b| == 0 then []
    else if |b| <= ReadSize then [Data(b)]
    else [Data(b[..ReadSize])] + Chunks(b[ReadSize..])
  }

  lemma {:induction false} ChunksConcat(b: seq<byte>)
    ensures Concat(Chunks(b)) == b
    decreases |b|
  {
    if |b| > ReadSize {
      ConcatAppend([Data(b[..ReadSize])], Chunks(b[ReadSize..]));
      ChunksConcat(b[ReadSize..]);
      assert b == b[..ReadSize] + b[ReadSize..];
    } else if |b| > 0 {
      assert Concat([Data(b)]) == b + Concat([]);
    }
  }

  /** Bytes already buffered when the relay starts are written first and
      whole, ahead of anything read later. */
  lemma BufferedBytesFirst(buffered: seq<byte>, later: seq<ReadResult>)
    ensures Written(Transfer(Chunks(buffered) + later).ops) == buffered + Written(Transfer(later).ops)
    ensures Transfer(Chunks(buffered) + later).status == Transfer(later).status
  {
    var c := Chunks(buffered);
    assert Stop(c) == |c|;
    TransferExtends(c, later);
    WrittenAppend(Transfer(c).ops, Transfer(later).ops);
    TransferCopies(c);
    assert c[..Stop(c)] == c;
    ChunksConcat(buffered);
  }
}

=== FILE: session.dfy ===
/** One client connection (`connection_callback`): connect to the proxy,
    send the CONNECT request, judge the reply, then either start both relay
    directions or close the client.  How the connection attempt ends, what
    the proxy has sent when the reply is read, and what each side sends
    later are inputs; the log lines are not modelled. */
module Session {
  import opened Wrappers
  import opened Ascii
  import Config
  import opened Handshake
  import opened Relay

  /** How `open_connection` to the proxy ends: with a connection, with an
      `OSError` (refused, unreachable, unknown host), or with any other
      exception, such as the `OverflowError` that a port outside 0-65535
      raises when the host is an IP address. */
  datatype Connect = Connected | ConnectOSError | ConnectOtherError

  /** The state of the proxy stream after the bytes it has delivered. */
  datatype StreamEnd = StillOpen | Eof | Reset

  /** What the proxy has delivered when `readuntil` looks at its stream. */
  datatype ProxyReply = ProxyReply(data: seq<byte>, end: StreamEnd)

  /** Exceptions that are not `OSError` and so escape the callback's
      `except OSError`: the callback ends without closing anything.
      `OverflowError` stands for every such exception of `open_connection`. */
  datatype Uncaught = OverflowError | UnicodeEncodeError | IncompleteReadError | UnicodeDecodeError | IndexError

  datatype Outcome =
    | Tunnel(request: seq<byte>, leftover: seq<byte>)  // both `data_transfer` tasks created
    | Refused(request: seq<byte>, statusLine: string)  // non-200: `client_writer.close()`
    | ConnectFailed                                    // `open_connection` raised OSError
    | ReplyFailed(request: seq<byte>)                  // reading the reply raised OSError
    | AwaitingReply(request: seq<byte>)                // `readuntil` is still waiting
    | Crashed(exc: Uncaught, sent: seq<WriterOp>)      // an uncaught exception ended the callback
  {
    /** The calls made on the proxy writer during the handshake. */
    function HandshakeOps(): seq<WriterOp> {
      match this
      case Tunnel(req, _) => [Write(req)]
      case Refused(req, _) => [Write(req)]
      case ConnectFailed => []
      case ReplyFailed(req) => [Write(req)]
      case AwaitingReply(req) => [Write(req)]
      case Crashed(_, sent) => sent
    }

    /** Whether the handler closes the client writer. */
    predicate ClosesClient() {
      Refused? || ConnectFailed? || ReplyFailed?
    }
  }

  /** The handshake writes nothing to the proxy but the CONNECT request,
      once, and never closes the proxy writer. */
  function Handle(proxy: Config.ProxyConfig, remote: string, connect: Connect, reply: ProxyReply): (o: Outcome)
    ensures o.HandshakeOps() == [] || (ConnectRequest(proxy, remote).Some? && o.HandshakeOps() == [Write(ConnectRequest(proxy, remote).value)])
    ensures o.Tunnel? || o.Refused? || o.ReplyFailed? || o.AwaitingReply? ==> o.request == ConnectRequest(proxy, remote).value
  {
    match connect
    case ConnectOSError => ConnectFailed
    case ConnectOtherError => Crashed(OverflowError, [])
    case Connected =>
      match ConnectRequest(proxy, remote)
      case None => Crashed(UnicodeEncodeError, [])
      case Some(request) =>
        match ReadUntil(reply.data)
        case None =>
          (match reply.end
           case StillOpen => AwaitingReply(request)
           case Eof => Crashed(IncompleteReadError, [Write(request)])
           case Reset => ReplyFailed(request))
        case Some((block, leftover)) =>
          match Judge(block)
          case Accept => Tunnel(request, leftover)
          case Refuse(line) => Refused(request, line)
          case NotAscii => Crashed(UnicodeDecodeError, [Write(request)])
          case TooFewFields => Crashed(IndexError, [Write(request)])
  }

  /** The reads of the proxy-to-client relay.  A reset stored on the stream
      is raised by the first read, before the buffered bytes; after end of
      stream the buffered bytes come out and then an empty read; while the
      stream is open the buffered bytes are followed by the later reads. */
  function ProxyReads(leftover: seq<byte>, end: StreamEnd, later: seq<ReadResult>): seq<ReadResult> {
    match end
    case Reset => [ReadError]
    case Eof => Chunks(leftover) + [Data([])]
    case StillOpen => Chunks(leftover) + later
  }

  /** Everything the session does to the two writers. */
  datatype SessionTrace = SessionTrace(outcome: Outcome, toProxy: seq<WriterOp>, toClient: seq<WriterOp>)

  /** `fromClient` are the reads on the client stream, `fromProxy` the
      reads on the proxy stream once the bytes left over from the reply
      have been consumed, while that stream is still open. */
  function Run(proxy: Config.ProxyConfig, remote: string, connect: Connect, reply: ProxyReply,
               fromClient: seq<ReadResult>, fromProxy: seq<ReadResult>): SessionTrace
  {
    var outcome := Handle(proxy, remote, connect, reply);
    match outcome
    case Tunnel(request, leftover) =>
      SessionTrace(outcome, [Write(request)] + Transfer(fromClient).ops,
                   Transfer(ProxyReads(leftover, reply.end, fromProxy)).ops)
    case _ =>
      SessionTrace(outcome, outcome.HandshakeOps(), if outcome.ClosesClient() then [Close] else [])
  }

  /** The tunnel starts exactly when the proxy was reached, the request
      could be encoded, the reply's header block arrived and the second
      field of its first line is `200`.  The request sent is then the
      CONNECT request, and the block and the leftover bytes make up what
      the proxy sent. */
  lemma TunnelIff(proxy: Config.ProxyConfig, remote: string, connect: Connect, reply: ProxyReply)
    ensures Handle(proxy, remote, connect, reply).Tunnel? <==>
              && connect == Connected
              && ConnectRequest(proxy, remote).Some?
              && ReadUntil(reply.data).Some?
              && Judge(ReadUntil(reply.data).value.0) == Accept
    ensures Handle(proxy, remote, connect, reply).Tunnel? ==>
              var o := Handle(proxy, remote, connect, reply);
              var block := ReadUntil(reply.data).value.0;
              && o.request == ConnectRequest(proxy, remote).value
              && block + o.leftover == reply.data
              && exists line :: Ascii.Decode(FirstLine(block)) == Some(line)
                                && |PyStr.Split(line)| >= 2 && PyStr.Split(line)[1] == "200"
  {
    ReadUntilSplits(reply.data);
  }

  /** Only an `OSError` from `open_connection` closes the client before
      the request; any other exception there ends the callback with nothing
      written and nothing closed. */
  lemma ConnectErrors(proxy: Config.ProxyConfig, remote: string, reply: ProxyReply,
                      fromClient: seq<ReadResult>, fromProxy: seq<ReadResult>)
    ensures var t := Run(proxy, remote, ConnectOSError, reply, fromClient, fromProxy);
            t.outcome == ConnectFailed && t.toProxy == [] && t.toClient == [Close]
    ensures var t := Run(proxy, remote, ConnectOtherError, reply, fromClient, fromProxy);
            t.outcome.Crashed? && t.toProxy == [] && t.toClient == []
  {
  }

  /** Without a tunnel no byte is relayed: the proxy sees at most the
      request, the client sees nothing but possibly one close, and the
      proxy connection is never closed by the handler, even on a
      refusal. */
  lemma NoRelayWithoutTunnel(proxy: Config.ProxyConfig, remote: string, connect: Connect, reply: ProxyReply,
                             fromClient: seq<ReadResult>, fromProxy: seq<ReadResult>)
    requires !Handle(proxy, remote, connect, reply).Tunnel?
    ensures var t := Run(proxy, remote, connect, reply, fromClient, fromProxy);
            && t.toClient == (if t.outcome.ClosesClient() then [Close] else [])
            && (t.toProxy == [] || (ConnectRequest(proxy, remote).Some? && t.toProxy == [Write(ConnectRequest(proxy, remote).value)]))
            && CloseCount(t.toProxy) == 0
            && Written(t.toClient) == []
  {
    var o := Handle(proxy, remote, connect, reply);
    assert CloseCount(o.HandshakeOps()) == 0;
  }

  /** A reply whose first line is ASCII with a second field other than
      `200` closes the client after the request was sent, and nothing else
      happens to either writer. */
  lemma RefusalClosesClient(proxy: Config.ProxyConfig, remote: string, reply: ProxyReply,
                            fromClient: seq<ReadResult>, fromProxy: seq<ReadResult>)
    requires ConnectRequest(proxy, remote).Some? && ReadUntil(reply.data).Some?
    requires Judge(ReadUntil(reply.data).value.0).Refuse?
    ensures var t := Run(proxy, remote, Connected, reply, fromClient, fromProxy);
            && t.outcome.Refused?
            && t.toClient == [Close]
            && t.toProxy == [Write(ConnectRequest(proxy, remote).value)]
  {
  }

  /** A reply whose first line is not ASCII or has fewer than two fields
      raises past the `except OSError`: the request was sent, and neither
      writer is closed. */
  lemma MalformedReplyClosesNothing(proxy: Config.ProxyConfig, remote: string, reply: ProxyReply,
                                    fromClient: seq<ReadResult>, fromProxy: seq<ReadResult>)
    requires ConnectRequest(proxy, remote).Some? && ReadUntil(reply.data).Some?
    requires Judge(ReadUntil(reply.data).value.0).NotAscii? || Judge(ReadUntil(reply.data).value.0).TooFewFields?
    ensures var t := Run(proxy, remote, Connected, reply, fromClient, fromProxy);
            && t.outcome.Crashed?
            && t.outcome.exc == (if Judge(ReadUntil(reply.data).value.0).NotAscii? then UnicodeDecodeError else IndexError)
            && t.toClient == []
            && t.toProxy == [Write(ConnectRequest(proxy, remote).value)]
            && CloseCount(t.toProxy) == 0
  {
    MalformedReply(proxy, remote, reply);
  }

  /** The handshake half of `MalformedReplyClosesNothing`. */
  lemma MalformedReply(proxy: Config.ProxyConfig, remote: string, reply: ProxyReply)
    requires ConnectRequest(proxy, remote).Some? && ReadUntil(reply.data).Some?
    requires Judge(ReadUntil(reply.data).value.0).NotAscii? || Judge(ReadUntil(reply.data).value.0).TooFewFields?
    ensures Handle(proxy, remote, Connected, reply)
            == Crashed(if Judge(ReadUntil(reply.data).value.0).NotAscii? then UnicodeDecodeError else IndexError,
                       [Write(ConnectRequest(proxy, remote).value)])
  {
  }

  /** Once the tunnel is up the client-to-proxy direction copies its
      source unmodified and in order: the proxy receives the request and
      then the client's bytes up to its end of stream, and is closed
      exactly when that stream ended. */
  lemma TunnelRelaysClient(proxy: Config.ProxyConfig, remote: string, connect: Connect, reply: ProxyReply,
                           fromClient: seq<ReadResult>, fromProxy: seq<ReadResult>)
    requires Handle(proxy, remote, connect, reply).Tunnel?
    ensures var t := Run(proxy, remote, connect, reply, fromClient, fromProxy);
            && Written(t.toProxy) == t.outcome.request + Concat(fromClient[..Stop(fromClient)])
            && CloseCount(t.toProxy) == (if Transfer(fromClient).status == Finished then 1 else 0)
  {
    var o := Handle(proxy, remote, connect, reply);
    WrittenAppend([Write(o.request)], Transfer(fromClient).ops);
    TransferCopies(fromClient);
  }

  /** The proxy-to-client direction: while the proxy stream stays open the
      client receives the bytes left over from the reply and then the
      proxy's later bytes, and is closed exactly when the proxy's stream
      ends; if the proxy had already closed, the client receives the
      leftover and is closed; if the proxy had reset the connection, the
      first read raises and the client receives nothing, not even the
      leftover, and is never closed. */
  lemma TunnelRelays(proxy: Config.ProxyConfig, remote: string, connect: Connect, reply: ProxyReply,
                     fromClient: seq<ReadResult>, fromProxy: seq<ReadResult>)
    requires Handle(proxy, remote, connect, reply).Tunnel?
    ensures var t := Run(proxy, remote, connect, reply, fromClient, fromProxy);
            reply.end == StillOpen ==>
              && Written(t.toClient) == t.outcome.leftover + Concat(fromProxy[..Stop(fromProxy)])
              && CloseCount(t.toClient) == (if Transfer(fromProxy).status == Finished then 1 else 0)
    ensures var t := Run(proxy, remote, connect, reply, fromClient, fromProxy);
            reply.end == Eof ==> Written(t.toClient) == t.outcome.leftover && CloseCount(t.toClient) == 1
    ensures var t := Run(proxy, remote, connect, reply, fromClient, fromProxy);
            reply.end == Reset ==> t.toClient == []
  {
    ProxyDirection(Handle(proxy, remote, connect, reply).leftover, reply.end, fromProxy);
  }

  /** What the proxy-to-client relay writes, by how the proxy stream
      stood when the tunnel started. */
  lemma ProxyDirection(leftover: seq<byte>, end: StreamEnd, later: seq<ReadResult>)
    ensures var ops := Transfer(ProxyReads(leftover, end, later)).ops;
            end == StillOpen ==>
              && Written(ops) == leftover + Concat(later[..Stop(later)])
              && CloseCount(ops) == (if Transfer(later).status == Finished then 1 else 0)
    ensures var ops := Transfer(ProxyReads(leftover, end, later)).ops;
            end == Eof ==> Written(ops) == leftover && CloseCount(ops) == 1
    ensures end == Reset ==> Transfer(ProxyReads(leftover, end, later)).ops == []
  {
    var c := Chunks(leftover);
    assert Stop(c) == |c|;
    TransferCopies(c);
    match end
    case StillOpen =>
      TransferCopies(later);
      BufferedBytesFirst(leftover, later);
      TransferExtends(c, later);
      WrittenAppend(Transfer(c).ops, Transfer(later).ops);
    case Eof =>
      BufferedBytesFirst(leftover, [Data([])]);
      TransferExtends(c, [Data([])]);
      WrittenAppend(Transfer(c).ops, [Close]);
    case Reset =>
  }

  /** Whatever happens, neither writer is closed more than once. */
  lemma ClosedAtMostOnce(proxy: Config.ProxyConfig, remote: string, connect: Connect, reply: ProxyReply,
                         fromClient: seq<ReadResult>, fromProxy: seq<ReadResult>)
    ensures var t := Run(proxy, remote, connect, reply, fromClient, fromProxy);
            CloseCount(t.toProxy) <= 1 && CloseCount(t.toClient) <= 1
  {
    if Handle(proxy, remote, connect, reply).Tunnel? {
      TunnelRelaysClient(proxy, remote, connect, reply, fromClient, fromProxy);
      TunnelRelays(proxy, remote, connect, reply, fromClient, fromProxy);
    } else {
      NoRelayWithoutTunnel(proxy, remote, connect, reply, fromClient, fromProxy);
    }
  }

  /** The configuration of the example sessions below: the default proxy
      and one route, local port 2222 to `10.0.0.5:22`. */
  lemma ExampleConfig()
    ensures Config.LoadConfig(Config.Map([
              (Config.Str("proxy"), Config.Map([(Config.Str("host"), Config.Str("127.0.0.1")), (Config.Str("port"), Config.Int(3128))])),
              (Config.Str("tunnels"), Config.Map([(Config.Int(2222), Config.Str("10.0.0.5:22"))]))]))
            == Config.Loaded(Config.ProxyConfig("127.0.0.1", 3128, "", ""), map[2222 := "10.0.0.5:22"])
  {
    var proxy := [(Config.Str("host"), Config.Str("127.0.0.1")), (Config.Str("port"), Config.Int(3128))];
    var tunnels := [(Config.Int(2222), Config.Str("10.0.0.5:22"))];
    ExampleProxySection();
    ExampleTunnelsSection();
    Config.LoadSections(proxy, tunnels);
  }

  /** The proxy section of the example configuration. */
  lemma ExampleProxySection()
    ensures var proxy := [(Config.Str("host"), Config.Str("127.0.0.1")), (Config.Str("port"), Config.Int(3128))];
            Config.OptionProblems(proxy) == [] && Config.ProxyRecord(proxy) == Config.ProxyConfig("127.0.0.1", 3128, "", "")
  {
    var proxy := [(Config.Str("host"), Config.Str("127.0.0.1")), (Config.Str("port"), Config.Int(3128))];
    assert Config.Get(proxy, "user") == None;
    assert Config.Get(proxy, "password") == None;
  }

  /** The tunnels section of the example configuration. */
  lemma ExampleTunnelsSection()
    ensures var tunnels := [(Config.Int(2222), Config.Str("10.0.0.5:22"))];
            Config.ScanTunnels(Config.Items(tunnels)) == Config.TunnelScan(map[2222 := "10.0.0.5:22"], [])
  {
    var tunnels := [(Config.Int(2222), Config.Str("10.0.0.5:22"))];
    assert Config.Items(tunnels) == tunnels;
  }

  /** A status line with the empty line after it, and the session it
      leads to: the verdict rests on the status code. */
  lemma StatusOnlyReply(proxy: Config.ProxyConfig, remote: string, version: string, code: string, reason: string,
                        fromClient: seq<ReadResult>, fromProxy: seq<ReadResult>)
    requires ConnectRequest(proxy, remote).Some?
    requires PyStr.IsField(version) && PyStr.IsField(code)
    requires IsAscii(version) && IsAscii(code) && IsAscii(reason)
    requires forall i :: 0 <= i < |reason| ==> reason[i] != '\r'
    ensures var line := version + " " + code + " " + reason;
            var request := ConnectRequest(proxy, remote).value;
            var reply := ProxyReply(Ascii.Encode(line).value + HeaderEnd, StillOpen);
            var t := Run(proxy, remote, Connected, reply, fromClient, fromProxy);
            && t.outcome == (if code == "200" then Tunnel(request, []) else Refused(request, line))
            && (code == "200" ==> t.toProxy == [Write(request)] + Transfer(fromClient).ops
                                  && t.toClient == Transfer(fromProxy).ops)
            && (code != "200" ==> t.toProxy == [Write(request)] && t.toClient == [Close])
  {
    var line := version + " " + code + " " + reason;
    var block := Ascii.Encode(line).value + HeaderEnd;
    StatusLineReply(version, code, reason, []);
    assert block + [] == block;
    assert ReadUntil(block) == Some((block, []));
    assert Chunks([]) + fromProxy == fromProxy;
  }

  /** Without a user the request only needs an ASCII remote target. */
  lemma SendableWithoutUser(proxy: Config.ProxyConfig, remote: string)
    requires proxy.user == "" && IsAscii(remote)
    ensures ConnectRequest(proxy, remote).Some?
  {
    ConnectRequestShape(proxy, remote);
  }

  /** A tunnel through the default local proxy, without credentials, to
      any remote target the request can encode.  The proxy answers
      `HTTP/1.1 200 Connection established`: the client's bytes reach the
      proxy verbatim after the request, the proxy writer is
      closed once the client's stream ends, and the client writer stays
      open while the proxy's stream does. */
  lemma ExampleEstablished(remote: string, ssh: seq<byte>)
    requires IsAscii(remote) && |ssh| > 0
    ensures var proxy := Config.ProxyConfig("127.0.0.1", 3128, "", "");
            var line := "HTTP/1.1" + " " + "200" + " " + "Connection established";
            var reply := ProxyReply(Ascii.Encode(line).value + HeaderEnd, StillOpen);
            var t := Run(proxy, remote, Connected, reply, [Data(ssh), Data([])], []);
            && ConnectRequest(proxy, remote).Some?
            && t.outcome == Tunnel(ConnectRequest(proxy, remote).value, [])
            && t.toProxy == [Write(ConnectRequest(proxy, remote).value), Write(ssh), Close]
            && t.toClient == []
  {
    var proxy := Config.ProxyConfig("127.0.0.1", 3128, "", "");
    SendableWithoutUser(proxy, remote);
    StatusPieces();
    var fromClient := [Data(ssh), Data([])];
    assert fromClient[1..] == [Data([])];
    assert Transfer(fromClient).ops == [Write(ssh), Close];
    StatusOnlyReply(proxy, remote, "HTTP/1.1", "200", "Connection established", fromClient, []);
  }

  /** The same proxy answers `407 Proxy Authentication Required` instead:
      the client is closed, the proxy has received only the request, and nothing is
      relayed in either direction. */
  lemma ExampleRefused(remote: string, fromClient: seq<ReadResult>, fromProxy: seq<ReadResult>)
    requires IsAscii(remote)
    ensures var proxy := Config.ProxyConfig("127.0.0.1", 3128, "", "");
            var line := "HTTP/1.1" + " " + "407" + " " + "Proxy Authentication Required";
            var reply := ProxyReply(Ascii.Encode(line).value + HeaderEnd, StillOpen);
            var t := Run(proxy, remote, Connected, reply, fromClient, fromProxy);
            && ConnectRequest(proxy, remote).Some?
            && t.outcome == Refused(ConnectRequest(proxy, remote).value, line)
            && t.toProxy == [Write(ConnectRequest(proxy, remote).value)]
            && t.toClient == [Close]
  {
    var proxy := Config.ProxyConfig("127.0.0.1", 3128, "", "");
    SendableWithoutUser(proxy, remote);
    StatusPieces();
    StatusOnlyReply(proxy, remote, "HTTP/1.1", "407", "Proxy Authentication Required", fromClient, fromProxy);
  }

  /** The pieces of the two example status lines have the form
      `StatusOnlyReply` expects. */
  lemma StatusPieces()
    ensures PyStr.IsField("HTTP/1.1") && IsAscii("HTTP/1.1")
    ensures PyStr.IsField("200") && PyStr.IsField("407") && IsAscii("200") && IsAscii("407")
    ensures IsAscii("Connection established") && IsAscii("Proxy Authentication Required")
    ensures forall i :: 0 <= i < |"Connection established"| ==> "Connection established"[i] != '\r'
    ensures forall i :: 0 <= i < |"Proxy Authentication Required"| ==> "Proxy Authentication Required"[i] != '\r'
  {
  }
}

=== FILE: wrappers.dfy ===
/** The usual optional-value datatype, used wherever a Python call either
    yields a value or raises. */
module Wrappers {

  datatype Option<+T> = None | Some(value: T)
}
